=== FILE: README.md ===
# statewalker-tree: a resumable depth-first walker, in Dafny

statewalker-tree walks a tree without holding a recursion of its own.
Each call makes one step of a small automaton. The automaton's whole state
is a context: the stack of open ancestors, a status bitmask, and the current
node. The caller supplies the tree through two lookups. `first` gives a
node's first child, or the root when nothing is current. `next` gives the
next sibling of the current node. A step runs in this order:

1. It calls `after` if the previous status closed a node.
2. It pushes the current node if the previous status opened one.
3. It asks for a node.
4. It either enters that node (status FIRST or NEXT, then `before`) or pops
   the stack (status LEAF or LAST, or NONE once the stack is empty).

The iterators run that step in a loop. They choose `next` after a closing
status and `first` otherwise, and yield the context whenever its status
matches a caller-given mode.

The model covers the TypeScript sources and their JavaScript twins: the
MODE bitmask, the context and its constructor, the synchronous and
suspending walkers, and the synchronous and suspending iterators.

| module (file) | what it holds |
|---|---|
| `Options` (options.dfy) | `Option<T>`, standing for an optional field or `undefined` |
| `Mode`, `ModeJs` (mode.dfy) | the status bitmask as `bv32` (JavaScript bitwise operators work on 32 bits), and the JavaScript copy of the table |
| `TreeWalkerContext` (context.dfy) | the context record and its constructor with defaults |
| `Walker` (walker.dfy) | one step of the TypeScript walker as a pure function: the new context, the callbacks made (`Before`/`After` with the stack depth at the call), and the return value; both on typed contexts and on the context as it is held at run time |
| `Nesting` (nesting.dfy) | the callbacks of the JavaScript walker, fed any sequence of lookup answers, nest like well-formed tags; the TypeScript walker does so while its nodes are truthy |
| `AsyncWalker`, `JsWalker` (async_walker.dfy) | the suspending walkers, whose `await` points are recorded as a sequence of suspensions, and the JavaScript walker with its truthiness tests |
| `Loop` (loop.dfy) | a generic bounded driver for "step until false, yield the matching states", standing for a generator's resumptions |
| `Iterator` (iterator.dfy) | the four iterators over that driver |
| `Traversal` (traversal.dfy) | the walker run over a concrete tree with `first`/`next` written as the repository's tests write them, and the exact sequence of contexts and callbacks it produces |
| `Orders` (orders.dfy) | what each mode yields over a whole tree: pre-order, post-order, leaves, or every node on entry and exit |
| `Ancestry` (ancestry.dfy) | the stack of every visited context is the chain of ancestors of its current node |
| `Sample` (sample.dfy) | the tree of the repository's iterator tests, and the nodes each mode yields on it |

The callbacks and lookups are parameters. A lookup's answer is an
`Option<T>`. A callback is recorded as an event rather than run. The
suspending variants record the points at which they await. Their outcomes
are proved equal to those of the synchronous variants.

Details of the code that the model keeps:

- The TypeScript walker tests a looked-up node with `!== undefined`
  (src/newTreeWalker.ts:20) and the popped node for truthiness
  (src/newTreeWalker.ts:26). The JavaScript walkers use truthiness for both
  (src/newTreeWalker.js:13 and 19). The model takes truthiness as a parameter
  `truthy: T -> bool` and applies it exactly where each source does.
- src/newAsyncTreeIterator.js:8 defaults the mode to ENTER; the other three
  iterators default to LEAF. `Iterator.ModeOrDefault` keeps that.
- The JavaScript iterators have no default context and read
  `context.status` before the first step. `Iterator.NewIterator` therefore
  requires a context for those two flavours.
- A step pushes `current` whenever the status opens a node, even when there
  is no current node; it then pushes `undefined`. The TypeScript types admit
  this (`current?: T` in src/TreeWalkerContext.ts), and the cast
  `current as T` at src/newTreeWalker.ts:18 hides the undefined push from
  the type checker. `Walker.Step` works on contexts the types
  admit (`Walker.Pushable`). The steps as they run (`Walker.RawStep`,
  `JsWalker.Step`, `AsyncWalker.Step`, `AsyncWalker.JsStep`) work on
  `Walker.RawContext`, whose stack slots may be undefined, and have no
  precondition. `Walker.RawStepAgrees` ties the two together on typed
  contexts.

## Model

| member | source | states |
|---|---|---|
| Mode.PrimaryBitsAreDistinctSingleBits | src/TreeWalkerContext.ts:7-12 | FIRST, NEXT, LEAF and LAST are the single bits 1, 2, 4 and 8, and no two of them share a bit |
| Mode.GroupsAreDisjoint | src/TreeWalkerContext.ts:14-15 | ENTER is 3 and EXIT is 12, and no status bit is in both groups |
| Mode.EachPrimaryInExactlyOneGroup | src/TreeWalkerContext.ts:9-15 | every step outcome is in exactly one group: FIRST and NEXT open a node (ENTER), LEAF and LAST close one (EXIT) |
| Mode.NoneMatchesNothing | src/TreeWalkerContext.ts:8 | NONE matches no mode, so a finished context is never yielded, and it is neither an opening nor a closing status |
| ModeJs.AgreesWithTypeScript | src/MODE.js:1-10 | the JavaScript table equals the TypeScript table, constant by constant |
| ModeJs.GroupsPartitionOutcomes | src/MODE.js:8-9 | ENTER and EXIT are disjoint, together they are exactly the four outcomes, and NONE is in neither |
| TreeWalkerContext.NewContext | src/TreeWalkerContext.ts:18-28 | each field the caller gives is kept; a missing stack becomes empty and a missing status becomes NONE |
| TreeWalkerContext.Empty | test/newTreeWalker.test.js:9-18 | the starting context has an empty stack, status NONE and no current node, the `{ status: 0, stack }` with an empty `stack` that the walker test passes in |
| TreeWalkerContext.NewContextDefaultsToEmpty | src/TreeWalkerContext.ts:18-28 | `newTreeWalkerContext` called with no arguments gives that starting context |
| Walker.Step | src/newTreeWalker.ts:12-33 | after any step the status is NONE or one of the four outcomes, an opening status still has a current node, and the step returns true exactly when the status is not NONE |
| Walker.StepEffect | src/newTreeWalker.ts:15-32 | the callbacks are `after` for a closing previous status, then `before` for a found node. A found node becomes current on top of the pushed stack, with NEXT after a close and FIRST otherwise. Without a found node the top of the stack is popped into current. The status is then NONE when nothing is left or the popped node is falsy, LAST after a close, and LEAF otherwise |
| Walker.CallbackOrder | src/newTreeWalker.ts:16-23 | a step makes at most two callbacks. `after` comes first, with the old context, exactly when the previous status closed a node. `before` comes last, at the new depth, exactly when the lookup found a node |
| Walker.LeafStepRestores | src/newTreeWalker.ts:18-30 | a node that was just entered and has no child is pushed and popped straight back: same stack, same current, status LEAF, no callback, still running |
| Walker.TerminatedStaysTerminated | src/newTreeWalker.ts:24-32 | once finished with an empty stack, every further step with an absent lookup finds nothing to pop, makes no callback and returns false again, as test/newTreeWalker.test.js:41-42 expects |
| Walker.Lower | src/TreeWalkerContext.ts:1-5 | a run-time context whose stack slots are all defined is a context of the declared type, and reading it back gives the same slots |
| Walker.LowerUndoesRaw | src/TreeWalkerContext.ts:1-5 | a context of the declared type is a run-time context with every slot defined, and nothing is lost on the way |
| Walker.RawStep | src/newTreeWalker.ts:12-33 | on any context, including one whose opening status has no current node, a step leaves NONE or one of the four outcomes, returns true exactly when the status is not NONE, and leaves a context whose next push is defined |
| Walker.RawStepAgrees | src/newTreeWalker.ts:18-30 | on a context the types admit, the step as it runs gives the typed step's context slot for slot, the same callbacks and the same return value |
| Walker.UndefinedSlotEndsWalk | src/newTreeWalker.ts:18-30 | an opening status with no current node pushes `undefined`; the step that pops an undefined slot, with no node found, ends the walk: status NONE, no current node, the stack below the slot kept |
| Nesting.ExitCloses | src/newTreeWalker.ts:16-18 | the closing callback of a step closes the node on top of the open chain, leaving the chain that the push builds |
| Nesting.PopTruthy | src/newTreeWalker.ts:25-30 | popping a stack of truthy nodes yields a truthy node, which the status test keeps as LEAF or LAST, and a truthy rest |
| Nesting.EnterOpens | src/newTreeWalker.js:12-20 | when the node found, if any, is truthy, the opening callback of a step opens exactly the node that the step leaves current, and the step keeps every open node truthy |
| Nesting.StepKeepsNesting | src/newTreeWalker.js:7-22 | replaying a step's callbacks as tags on the chain of open nodes before the step yields the chain of open nodes after it |
| Nesting.TsFeedAgrees | src/newTreeWalker.ts:19-23 | when every defined lookup answer is truthy, feeding the TypeScript walker is feeding the JavaScript walker |
| Nesting.FeedKeepsNesting | test/newTreeWalker.test.js:14-42 | whatever lookup answers the JavaScript walker is fed, one per step, the callbacks never close a node that is not open, and they leave open exactly the stack and current node |
| Nesting.BalancedOnceFinished | test/newTreeWalker.test.js:21-64 | started from the empty context, the JavaScript walker's callbacks are well nested for any answers, and once it has returned false every opened node has been closed |
| Nesting.TsBalancedOnTruthyAnswers | src/newTreeWalker.ts:15-32 | the TypeScript walker gives the same guarantee whenever every defined answer is truthy |
| Nesting.TsFalsyNodeLeftOpen | src/newTreeWalker.ts:20-30 | the TypeScript walker on numbers, answering 1, then 0, then nothing, enters both nodes and stops at the pop of 0 with neither `after` called |
| AsyncWalker.Step | src/newAsyncTreeWalker.ts:12-35 | on any context, the TypeScript suspending step always awaits the lookup, awaits `after` exactly when the previous status closed a node, and awaits `before` exactly when a node was found, in that order; it never awaits the push or the pop |
| AsyncWalker.Schedule | src/newAsyncTreeWalker.ts:17-33 | the await points of one step appear in source order, each present exactly when its guard holds |
| AsyncWalker.MatchesSync | src/newAsyncTreeWalker.ts:17-34 | on any context, apart from its await points, the suspending step has the same outcome as the synchronous step as it runs |
| AsyncWalker.JsStep | src/newAsyncTreeWalker.js:7-22 | on any context, the JavaScript suspending step awaits the push exactly on an opening status, `before` exactly when the node found is truthy, and the pop otherwise, in source order |
| JsWalker.KeepTruthy | src/newTreeWalker.js:12-13 | a looked-up node counts as found exactly when it is truthy |
| JsWalker.Step | src/newTreeWalker.js:7-22 | on any context, including one whose opening status has no current node, the JavaScript step leaves NONE or an outcome, returns true exactly when the status is not NONE, and leaves a context whose next push is defined |
| JsWalker.AgreesWithTs | src/newTreeWalker.js:8-21 | on any context, the JavaScript step is the TypeScript step applied to the lookup with falsy nodes dropped |
| JsWalker.OnTypedContexts | src/newTreeWalker.js:7-22 | on a context the types admit, the JavaScript step is the typed TypeScript step fed the lookup with falsy nodes dropped; this is the step the JavaScript iterators drive |
| JsWalker.TruthyNodesWalkAsInTs | test/newTreeWalker.test.js:14-42 | when every node is truthy, as the test's non-empty names are, the JavaScript step on a typed context is the TypeScript step, so the `Nesting` results hold for the walker the test runs |
| JsWalker.FalsyFoundIsAbsent | src/newTreeWalker.js:13 | a falsy node from the lookup acts exactly like no node |
| JsWalker.AsyncMatchesSync | src/newAsyncTreeWalker.js:7-22 | on any context, apart from its await points, the JavaScript suspending step has the synchronous JavaScript step's outcome |
| Loop.Drive | src/newTreeIterator.ts:24-28 | a bounded run of the loop stops early only because a step returned false; otherwise it has made one step per unit of fuel |
| Loop.YieldsAreWantedSteps | src/newTreeIterator.ts:26-27 | what the loop yields is exactly the states it passes through that the mode selects, in order |
| Loop.FilterKeepsWanted | src/newTreeIterator.ts:27 | every yielded state is a visited state the mode selects, and every such state is yielded |
| Loop.YieldsDoNotSteer | src/newTreeIterator.ts:25-27 | the mode only filters: runs under different modes pass through the same states, make the same callbacks and stop in the same place |
| Loop.Resume | src/newTreeIterator.ts:24-28 | running n steps and then m more from where the first run stopped is the same as running n + m steps |
| Iterator.AdvanceConsultsOneLookup | src/newTreeIterator.ts:25-26 | a turn of the loop depends only on `next` after a closing status and only on `first` otherwise: changing the other lookup cannot change the outcome |
| Iterator.Advance | src/newTreeIterator.ts:25-26 | one turn of the loop leaves an outcome status or NONE, and reports true exactly when the status is not NONE |
| Iterator.Iterate | src/newTreeIterator.ts:23-28 | the iterator makes at most one step per unit of fuel, and fewer only when the walker returned false |
| Iterator.Load | src/newTreeIterator.ts:25 | the loop hands the walker `next` right after a LEAF or LAST outcome, and `first` after FIRST, NEXT or NONE |
| Iterator.FirstStepIsAdvance | src/newTreeIterator.ts:24-26 | the first context the loop passes through is the one its first turn leaves |
| Iterator.TurnStatus | src/newTreeIterator.ts:26 | a step that returns true leaves one of the four outcomes, and a step that returns false leaves NONE |
| Iterator.IterateStopsOnNone | src/newTreeIterator.ts:24-28 | every context the iterator passes through has one of the four outcomes, and it stops only on NONE |
| Iterator.IterateYieldsMatchingSteps | src/newTreeIterator.ts:27 | the iterator yields exactly the contexts whose status matches the mode, in the order it reaches them |
| Iterator.Resume | src/newTreeIterator.ts:23-28 | pausing after n steps and resuming from the paused context for m more is the same as running n + m steps |
| Iterator.TruthyHooksDropFalsyNodes | src/newTreeWalker.js:12-13 | the filtered lookups answer exactly the truthy nodes of the originals |
| Iterator.WalkIsRunning | src/newTreeIterator.js:10-13 | the step a loop drives on a typed context is the TypeScript or JavaScript step as it runs, read back as a typed context |
| Iterator.TruthyNodesIterateAsInTs | src/newTreeIterator.js:10-15 | when every node is truthy, the JavaScript iterator runs exactly as the TypeScript one over the same lookups |
| Iterator.JsLoopIsTsLoopOverTruthyLookups | src/newTreeIterator.js:10-15 | the JavaScript iterator is the TypeScript iterator over lookups with falsy nodes dropped |
| Iterator.AsyncAdvance | src/newAsyncTreeIterator.ts:29-30 | a turn of the suspending loop, built from the suspending walker step, leaves an outcome status or NONE and reports true exactly when it is not NONE; it always awaits the lookup, awaits `after` exactly on a closing status, and keeps its await points in order |
| Iterator.SuspendingIsWalk | src/newAsyncTreeWalker.ts:17-33 | for either walker, the suspending step's outcome on the run-time context is the typed step the loop drives |
| Iterator.AsyncAdvanceIsSuspending | src/newAsyncTreeIterator.ts:27-32 | a turn of the suspending loop is the suspending walker step as it runs, on the context as the program holds it: the same outcome once read back, and the same await points |
| Iterator.AsyncAdvanceIsAdvance | src/newAsyncTreeIterator.ts:29-30 | a suspending turn ends in the same context, with the same callbacks and result, as the synchronous turn |
| Iterator.AsyncIterate | src/newAsyncTreeIterator.ts:27-32 | the suspending iterator's loop, over both suspending walkers (also src/newAsyncTreeIterator.js:10-15), makes at most one step per unit of fuel, and fewer only when the walker returned false |
| Iterator.AsyncIterateMatchesSync | src/newAsyncTreeIterator.ts:27-32 | the suspending iterator passes through, yields and calls back exactly as the synchronous one does |
| Iterator.ModeOrDefault | src/newAsyncTreeIterator.js:8 | a given mode is used as is; without one, the JavaScript suspending iterator uses ENTER and the other three use LEAF |
| Iterator.NewIterator | src/newTreeIterator.ts:8-29 | the TypeScript iterators without a context start from the empty one. With a context, the first context reached is the step from it. Every flavour runs the same loop as the synchronous iterator of its language |
| Traversal.IndexOfFindsFirst | test/newAsyncTreeIterator.test.ts:180-183 | the search stops at the first sibling with the current node's name, or past the end when there is none |
| Traversal.IndexOfDistinct | test/newAsyncTreeIterator.test.ts:172-185 | with distinct sibling names, a child is found at its own position |
| Traversal.First | test/newAsyncTreeIterator.test.ts:166-171 | with no current node the lookup gives the root; otherwise it gives the current node's first child, exactly when it has one |
| Traversal.Next | test/newAsyncTreeIterator.test.ts:172-185 | with no stack the lookup gives nothing; when the stack top's children have distinct names and the current node is its `k`th child, it gives the `k + 1`st child, or nothing after the last |
| Traversal.EachFoundAtItsIndex | test/newAsyncTreeIterator.test.ts:180-183 | with distinct sibling names, the name search finds every child at its own index |
| Traversal.EnterStep | src/newTreeWalker.ts:18-31 | after entering a node, the next step enters its first child (FIRST, one level deeper) if it has one, and otherwise marks it LEAF without a callback |
| Traversal.NextStep | src/newTreeWalker.ts:16-31 | after closing a child, the next step calls `after` for it, then enters the next sibling (NEXT) or, after the last sibling, closes the parent (LAST) |
| Traversal.RootStep | src/newTreeWalker.ts:19-23 | from the empty context the first step enters the root at depth 0 |
| Traversal.FinalStep | src/newTreeWalker.ts:24-32 | closing the root calls `after` for it, empties the context and returns false |
| Traversal.EnterSubtree | src/newTreeWalker.ts:15-32 | entering any node walks its whole subtree through exactly the contexts of the depth-first order, calling back each descendant's `before` and `after` at its depth |
| Traversal.Children | src/newTreeWalker.ts:15-32 | from the close of one child, the walk visits the remaining siblings in order and stops at the parent's LAST |
| Traversal.WalkWholeTree | test/newTreeWalker.test.js:43-64 | from the empty context, the walker visits the whole tree in depth-first order and calls `before`/`after` for every node as nested tags at its depth, then stops empty |
| Traversal.RunWholeTree | test/newAsyncTreeIterator.test.ts:211-228 | with enough fuel, a run over the whole tree passes through exactly the depth-first contexts, yields the selected ones and returns to the empty context |
| Traversal.IterateTree | test/newAsyncTreeIterator.test.ts:193-200 | the TypeScript iterator with the tests' lookups, on any tree with distinct sibling names, visits the whole tree and finishes |
| Orders.SubtreeYields | src/newTreeIterator.ts:27 | the contexts of a subtree's walk that a mode selects hold, in order, the nodes the tree-level `Yields` computes |
| Orders.TraversalYields | src/newTreeIterator.ts:24-28 | over the whole traversal, the selected contexts hold the root if the mode takes FIRST, then what the root's subtree yields |
| Orders.EnterYieldsPreOrder | test/newAsyncTreeIterator.test.ts:43-47 | with ENTER, a subtree yields its proper descendants in pre-order |
| Orders.ExitYieldsPostOrder | test/newAsyncTreeIterator.test.ts:116-120 | with EXIT, a subtree yields its nodes in post-order, its root last |
| Orders.LeafYieldsLeaves | test/newAsyncTreeIterator.test.ts:82-86 | with LEAF, a subtree yields its childless nodes left to right |
| Orders.BothYieldTwice | test/newAsyncTreeIterator.test.ts:392-418 | with ENTER\|EXIT, a subtree yields each proper descendant on entry and on exit, and its root once at the end |
| Orders.IteratorsAgreeOnTrees | src/newAsyncTreeIterator.ts:27-32 | over a tree, the JavaScript iterators run as the TypeScript ones, and the suspending iterators as the synchronous ones |
| Orders.IterateEnterIsPreOrder | test/newAsyncTreeIterator.test.ts:43-47 | each of the four iterators, with mode ENTER, yields the whole tree in pre-order, root first |
| Orders.IterateExitIsPostOrder | test/newAsyncTreeIterator.test.ts:116-120 | each of the four iterators, with mode EXIT, yields the whole tree in post-order, root last |
| Orders.IterateLeafIsLeaves | test/newAsyncTreeIterator.test.ts:82-86 | each of the four iterators, with mode LEAF, yields exactly the childless nodes, left to right |
| Orders.IterateBothIsTwice | test/newAsyncTreeIterator.test.ts:392-418 | each of the four iterators, with mode ENTER\|EXIT, yields every node twice, once before its descendants and once after them |
| Sample.TestTreeIsValid | test/newAsyncTreeIterator.test.ts:17-40 | the tests' tree a(b1(c1, c2, c3), b2, b3(d(e(f)))) has distinct sibling names, so the general theorems apply to it |
| Sample.EnterControl | test/newAsyncTreeIterator.test.ts:280-284 | on the tests' tree, the suspending TypeScript ENTER iterator yields a, b1, c1, c2, c3, b2, b3, d, e, f |
| Sample.LeafControl | test/newAsyncTreeIterator.test.ts:319-323 | on the tests' tree, the suspending TypeScript LEAF iterator yields c1, c2, c3, b2, f |
| Sample.ExitControl | test/newAsyncTreeIterator.test.ts:353-357 | on the tests' tree, the suspending TypeScript EXIT iterator yields c1, c2, c3, b1, b2, f, e, d, b3, a |
| Sample.EnterExitControl | test/newAsyncTreeIterator.test.ts:392-418 | on the tests' tree, the suspending TypeScript ENTER\|EXIT iterator yields a, b1, c1, c1, c2, c2, c3, c3, b1, b2, b2, b3, d, e, f, f, e, d, b3, a |
| Ancestry.SubtreeRooted | src/newTreeWalker.ts:18-25 | below a path from the root, every context of a subtree's walk has a stack that, with its current node, is a path from the root |
| Ancestry.IterateStepsAreRooted | test/newAsyncTreeIterator.test.ts:172-178 | every context the iterator passes through holds the chain of ancestors of its current node, root first, as the tests' `next` assumes when it reads the parent from the stack top |

## Left out

- Promise scheduling: the suspending walkers and iterators are modelled by the order of their await points and by their outcome. Interleaving with other tasks is not modelled.
- Generator mechanics: a generator's lazy resumption is modelled as a run bounded by `fuel`. `Iterator.Resume` shows that pausing and resuming equals one longer run. An unbounded run (a lookup that never answers "none") is only modelled up to the fuel.
- Mutation and aliasing: the source mutates one context object and yields it by reference. The model returns fresh immutable contexts, so what a consumer sees after mutating a yielded context is not modelled.
- Callbacks and lookups are not run. Callbacks are recorded as `Before`/`After` events with the stack depth at the call. Lookups are given as functions to `Option<T>`. Their side effects on the context are not modelled, and neither are exceptions they throw.
- Walker.Step: requires that a context whose status opens a node has a current node, as the stack's type `T[]` and the cast `current as T` assume. On other contexts the source pushes `undefined`; that behaviour is `Walker.RawStep`, which `Walker.RawStepAgrees` proves equal to `Walker.Step` on typed contexts.
- Iterator.NewIterator: requires a context for the two JavaScript flavours. Those iterators read `context.status` before the first step, and without a context they throw. Its context, like that of `Iterator.Iterate`, is a typed one (`Iterator.Ready`); a caller context whose opening status has no current node is covered only for a single step, by `Walker.RawStep` and `JsWalker.Step`.
- Status values outside the bitmask are kept as `bv32`. JavaScript's conversion of non-integer or wider numbers to 32 bits is not modelled.
- Traversal, Orders and Ancestry assume sibling names are distinct (`ValidTree`). The tests' `next` finds the current node among its siblings by name, so equal names would make it restart at the first of them.
- Traversal, Orders and Ancestry quantify over a node type with no heap references (`L(!new)`), so a node is a value, not an object.
- The lazily loaded tree of the async tests and the console output of the repository's example script are not part of this model, and neither is the JSON copy the resume tests make of the paused context (its effect is covered by `Iterator.Resume` on value contexts).
- Nesting.FeedKeepsNesting, Nesting.BalancedOnceFinished: hold for the JavaScript walker, which skips falsy answers. For the TypeScript walker they hold only when every defined answer is truthy (`Nesting.TsBalancedOnTruthyAnswers`). It enters a defined falsy node such as `0` (src/newTreeWalker.ts:20), and popping that node later ends the walk with status NONE before its `after` (line 26), as `Nesting.TsFalsyNodeLeftOpen` shows.
- Loop.Filter: has no contract of its own. Its properties are the lemmas `Loop.FilterAppend` and `Loop.FilterKeepsWanted`.

=== FILE: ancestry.dfy ===
/**
 The stack of every context the traversal passes through is the chain of
 ancestors of its current node, from the root down: the walker pushes the
 parent before it moves to a first child and pops it when the children are
 exhausted, so `|stack|` is the current node's depth.
 */
module Ancestry {
  import opened Options
  import opened Mode
  import opened TreeWalkerContext
  import opened Iterator
  import opened Traversal
  import Loop

  /** `p` descends from `root` one child at a time. */
  predicate IsPath<L(==)>(root: Tree<L>, p: seq<Tree<L>>) {
    && |p| > 0
    && p[0] == root
    && forall k :: 0 <= k < |p| - 1 ==> p[k + 1] in p[k].children
  }

  /** The context has a current node, and its stack followed by that node is a path from `root`. */
  predicate Rooted<L(==)>(root: Tree<L>, c: Ready<Tree<L>>) {
    c.current.Some? && IsPath(root, c.stack + [c.current.value])
  }

  predicate AllRooted<L(==)>(root: Tree<L>, cs: seq<Ready<Tree<L>>>) {
    forall k :: 0 <= k < |cs| ==> Rooted(root, cs[k])
  }

  /** A path extends by any child of its last node. */
  lemma {:induction false} Extend<L>(root: Tree<L>, p: seq<Tree<L>>, c: Tree<L>)
    requires IsPath(root, p) && c in p[|p| - 1].children
    ensures IsPath(root, p + [c])
  {
    var q := p + [c];
    forall k | 0 <= k < |q| - 1
      ensures q[k + 1] in q[k].children
    {
      if k < |p| - 1 {
        assert q[k + 1] == p[k + 1] && q[k] == p[k];
      } else {
        assert q[k + 1] == c && q[k] == p[|p| - 1];
      }
    }
  }

  lemma {:induction false} AllRootedJoin<L>(root: Tree<L>, x: Ready<Tree<L>>, a: seq<Ready<Tree<L>>>, b: seq<Ready<Tree<L>>>)
    requires Rooted(root, x) && AllRooted(root, a) && AllRooted(root, b)
    ensures AllRooted(root, [x] + a + b)
  {
    var cs := [x] + a + b;
    forall k | 0 <= k < |cs|
      ensures Rooted(root, cs[k])
    {
      if k == 0 {
        assert cs[k] == x;
      } else if k <= |a| {
        assert cs[k] == a[k - 1];
      } else {
        assert cs[k] == b[k - 1 - |a|];
      }
    }
  }

  /** The step into the child `c` of `t`, with `s + [t]` already a path, is rooted. */
  lemma {:induction false} StepDownRooted<L>(root: Tree<L>, t: Tree<L>, s: seq<Tree<L>>, st: Status, c: Tree<L>)
    requires IsPath(root, s + [t]) && c in t.children && (st == FIRST || st == NEXT)
    ensures Rooted<L>(root, Context(s + [t], st, Some(c)))
  {
    Extend(root, s + [t], c);
  }

  /** Every context of the walk of `t`, entered below the path `s + [t]`, is rooted. */
  lemma {:induction false} SubtreeRooted<L>(root: Tree<L>, t: Tree<L>, s: seq<Tree<L>>)
    requires IsPath(root, s + [t])
    ensures AllRooted(root, SubSteps(t, s))
    decreases t, 1
  {
    if |t.children| == 0 {
      assert SubSteps(t, s)[0] == Context(s, LEAF, Some(t));
    } else {
      var c0 := t.children[0];
      StepDownRooted(root, t, s, FIRST, c0);
      SubtreeRooted(root, c0, s + [t]);
      ChildrenRooted(root, t, 1, s);
      AllRootedJoin(root, Context(s + [t], FIRST, Some(c0)), SubSteps(c0, s + [t]), ChildSteps(t, 1, s));
    }
  }

  lemma {:induction false} ChildrenRooted<L>(root: Tree<L>, t: Tree<L>, i: nat, s: seq<Tree<L>>)
    requires IsPath(root, s + [t]) && 1 <= i <= |t.children|
    ensures AllRooted(root, ChildSteps(t, i, s))
    decreases t, 0, |t.children| - i
  {
    if i == |t.children| {
      assert ChildSteps(t, i, s)[0] == Context(s, LAST, Some(t));
    } else {
      var ci := t.children[i];
      StepDownRooted(root, t, s, NEXT, ci);
      SubtreeRooted(root, ci, s + [t]);
      ChildrenRooted(root, t, i + 1, s);
      AllRootedJoin(root, Context(s + [t], NEXT, Some(ci)), SubSteps(ci, s + [t]), ChildSteps(t, i + 1, s));
    }
  }

  /**
   Iterating a whole tree, every context the loop passes through holds the
   chain of ancestors of its current node as its stack.
   */
  lemma {:induction false} IterateStepsAreRooted<L(!new)>(root: Tree<L>, mode: Status, fuel: nat)
    requires ValidTree(root) && fuel > |Traversal.Traversal(root)|
    ensures AllRooted(root, Iterate(Ts, TreeHooks(root), Empty(), mode, fuel).steps)
  {
    IterateTree(root, mode, fuel);
    assert IsPath(root, [] + [root]);
    SubtreeRooted(root, root, []);
    AllRootedJoin(root, Context([], FIRST, Some(root)), SubSteps(root, []), []);
    assert Traversal.Traversal(root) == [Context([], FIRST, Some(root))] + SubSteps(root, []) + [];
  }
}

=== FILE: async_walker.dfy ===
/**
 The suspending walker steps: `newAsyncTreeWalker` in `src/newAsyncTreeWalker.ts`
 and its JavaScript form. Each step awaits its callbacks one at a time; the
 model records the order of those suspension points next to the outcome.
 A suspension hands control to the scheduler but changes no state, so the
 outcome is the synchronous one.
 */
module AsyncWalker {
  import opened Options
  import opened Mode
  import opened TreeWalkerContext
  import opened Walker

  /** A point where a step waits: on a callback, on the lookup, or (JavaScript only) on the push and the pop. */
  datatype Suspension = AwaitAfter | AwaitPush | AwaitLookup | AwaitBefore | AwaitPop

  /** What a step produced, next to the suspension points it went through. */
  datatype Awaited<O> = Awaited(outcome: O, suspensions: seq<Suspension>)

  /**
   The TypeScript suspending step: await `after` when the previous status
   was an exit, push on an entry, await the lookup, then either enter the
   found node and await `before`, or pop.
   */
  function Step<T>(c: RawContext<T>, found: Option<T>, truthy: T -> bool): (r: Awaited<RawOutcome<T>>)
    ensures AwaitLookup in r.suspensions && AwaitPush !in r.suspensions && AwaitPop !in r.suspensions
    ensures (AwaitAfter in r.suspensions) <==> IsExit(c.status)
    ensures (AwaitBefore in r.suspensions) <==> found.Some?
    ensures InOrder(r.suspensions)
  {
    var prev := IsExit(c.status);
    var waited := Schedule(prev, false, found.Some?, false);
    var called := if prev then [After(c.current, |c.stack|)] else [];
    var stack := if IsEnter(c.status) then c.stack + [c.current] else c.stack;
    var outcome :=
      if found.Some? then
        RawOutcome(RawContext(stack, if prev then NEXT else FIRST, found),
                   called + [Before(found.value, |stack|)], true)
      else if stack == [] then
        RawOutcome(RawContext(stack, NONE, None), called, false)
      else
        (var node := stack[|stack| - 1];
         var status := if node.Some? && truthy(node.value) then (if prev then LAST else LEAF) else NONE;
         RawOutcome(RawContext(stack[..|stack| - 1], status, node), called, status != NONE));
    Awaited(outcome, waited)
  }

  /** The rank of each suspension point within a step. */
  function Rank(s: Suspension): nat {
    match s
    case AwaitAfter => 0
    case AwaitPush => 1
    case AwaitLookup => 2
    case AwaitBefore => 3
    case AwaitPop => 3
  }

  /** Strictly sequential: each suspension point at most once, and never out of order. */
  predicate InOrder(w: seq<Suspension>) {
    forall i, j :: 0 <= i < j < |w| ==> Rank(w[i]) < Rank(w[j])
  }

  /** The suspension points before the lookup. */
  function Head(after: bool, push: bool): (w: seq<Suspension>)
    ensures (AwaitAfter in w) == after && (AwaitPush in w) == push
    ensures AwaitLookup !in w && AwaitBefore !in w && AwaitPop !in w
    ensures InOrder(w) && forall i :: 0 <= i < |w| ==> Rank(w[i]) < 2
  {
    if after && push then [AwaitAfter, AwaitPush]
    else if after then [AwaitAfter]
    else if push then [AwaitPush]
    else []
  }

  /** The lookup and the suspension point after it. */
  function Tail(before: bool, pop: bool): (w: seq<Suspension>)
    requires !(before && pop)
    ensures AwaitLookup in w && AwaitAfter !in w && AwaitPush !in w
    ensures (AwaitBefore in w) == before && (AwaitPop in w) == pop
    ensures InOrder(w) && forall i :: 0 <= i < |w| ==> 2 <= Rank(w[i])
  {
    if before then [AwaitLookup, AwaitBefore]
    else if pop then [AwaitLookup, AwaitPop]
    else [AwaitLookup]
  }

  /** The suspension points of one step, given which of the optional ones it reaches. */
  function Schedule(after: bool, push: bool, before: bool, pop: bool): (w: seq<Suspension>)
    requires !(before && pop)
    ensures AwaitLookup in w
    ensures (AwaitAfter in w) == after && (AwaitPush in w) == push
    ensures (AwaitBefore in w) == before && (AwaitPop in w) == pop
    ensures InOrder(w)
  {
    InOrderJoin(Head(after, push), Tail(before, pop), 2);
    Head(after, push) + Tail(before, pop)
  }

  /** Two ordered runs, all of the first ranked below `mid` and all of the second at or above it, stay ordered when joined. */
  lemma {:induction false} InOrderJoin(a: seq<Suspension>, b: seq<Suspension>, mid: nat)
    requires InOrder(a) && InOrder(b)
    requires forall i :: 0 <= i < |a| ==> Rank(a[i]) < mid
    requires forall j :: 0 <= j < |b| ==> mid <= Rank(b[j])
    ensures InOrder(a + b)
  {
  }

  /** Given the same lookup result, awaiting changes nothing: the step ends as the synchronous one. */
  lemma {:induction false} MatchesSync<T>(c: RawContext<T>, found: Option<T>, truthy: T -> bool)
    ensures Step(c, found, truthy).outcome == RawStep(c, found, truthy)
  {
  }

  /** The JavaScript suspending step (`src/newAsyncTreeWalker.js`), which also awaits the push and the pop. */
  function JsStep<T>(c: RawContext<T>, found: Option<T>, truthy: T -> bool): (r: Awaited<RawOutcome<T>>)
    ensures AwaitLookup in r.suspensions
    ensures (AwaitAfter in r.suspensions) <==> IsExit(c.status)
    ensures (AwaitPush in r.suspensions) <==> IsEnter(c.status)
    ensures (AwaitBefore in r.suspensions) <==> (found.Some? && truthy(found.value))
    ensures (AwaitPop in r.suspensions) <==> !(found.Some? && truthy(found.value))
    ensures InOrder(r.suspensions)
  {
    var prev := IsExit(c.status);
    var enter := IsEnter(c.status);
    var present := found.Some? && truthy(found.value);
    var waited := Schedule(prev, enter, present, !present);
    var called := if prev then [After(c.current, |c.stack|)] else [];
    var stack := if enter then c.stack + [c.current] else c.stack;
    var outcome :=
      if present then
        RawOutcome(RawContext(stack, if prev then NEXT else FIRST, found),
                   called + [Before(found.value, |stack|)], true)
      else if stack == [] then
        RawOutcome(RawContext(stack, NONE, None), called, false)
      else
        (var node := stack[|stack| - 1];
         var status := if node.Some? && truthy(node.value) then (if prev then LAST else LEAF) else NONE;
         RawOutcome(RawContext(stack[..|stack| - 1], status, node), called, status != NONE));
    Awaited(outcome, waited)
  }
}

/**
 The JavaScript walker `src/newTreeWalker.js`. It differs from the
 TypeScript one in a single test: a found node counts only when it is
 truthy, so a falsy node is treated as no node at all.
 */
module JsWalker {
  import opened Options
  import opened Mode
  import opened TreeWalkerContext
  import opened Walker
  import AsyncWalker

  /** The lookup result as the JavaScript `if (node)` sees it. */
  function KeepTruthy<T>(found: Option<T>, truthy: T -> bool): (r: Option<T>)
    ensures r.Some? <==> found.Some? && truthy(found.value)
    ensures r.Some? ==> r == found
  {
    if found.Some? && truthy(found.value) then found else None
  }

  /**
   One step of the JavaScript walker, on any context: like the TypeScript
   walker it pushes `current` on an opening status even when there is none.
   */
  function Step<T>(c: RawContext<T>, found: Option<T>, truthy: T -> bool): (r: RawOutcome<T>)
    ensures StepStatus(r.ctx.status) && (r.alive <==> r.ctx.status != NONE)
    ensures IsEnter(r.ctx.status) ==> r.ctx.current.Some?
  {
    var prev := IsExit(c.status);
    var called := if prev then [After(c.current, |c.stack|)] else [];
    var stack := if IsEnter(c.status) then c.stack + [c.current] else c.stack;
    if found.Some? && truthy(found.value) then
      RawOutcome(RawContext(stack, if prev then NEXT else FIRST, found),
                 called + [Before(found.value, |stack|)], true)
    else if stack == [] then
      RawOutcome(RawContext(stack, NONE, None), called, false)
    else
      var node := stack[|stack| - 1];
      var status := if node.Some? && truthy(node.value) then (if prev then LAST else LEAF) else NONE;
      RawOutcome(RawContext(stack[..|stack| - 1], status, node), called, status != NONE)
  }

  /** The JavaScript step is the TypeScript step fed the truthy-filtered lookup. */
  lemma {:induction false} AgreesWithTs<T>(c: RawContext<T>, found: Option<T>, truthy: T -> bool)
    ensures Step(c, found, truthy) == RawStep(c, KeepTruthy(found, truthy), truthy)
  {
  }

  /**
   On a context the types admit, the JavaScript step is the typed TypeScript
   step fed the truthy-filtered lookup; this is the step the iterators drive.
   */
  lemma {:induction false} OnTypedContexts<T>(c: Context<T>, found: Option<T>, truthy: T -> bool)
    requires Pushable(c)
    ensures Step(Raw(c), found, truthy) == RawOutcomeOf(Walker.Step(c, KeepTruthy(found, truthy), truthy))
  {
    AgreesWithTs(Raw(c), found, truthy);
    RawStepAgrees(c, KeepTruthy(found, truthy), truthy);
  }

  /**
   When every node is truthy (objects, non-empty names), the JavaScript step
   on a typed context is the TypeScript step itself, so what is proved about
   the latter holds for the former.
   */
  lemma {:induction false} TruthyNodesWalkAsInTs<T>(c: Context<T>, found: Option<T>)
    requires Pushable(c)
    ensures Step(Raw(c), found, AllTruthy()) == RawOutcomeOf(Walker.Step(c, found, AllTruthy()))
  {
    OnTypedContexts(c, found, AllTruthy());
    assert KeepTruthy(found, AllTruthy<T>()) == found;
  }

  /** A falsy node returned by the lookup ends the step exactly as an absent one does. */
  lemma {:induction false} FalsyFoundIsAbsent<T>(c: RawContext<T>, n: T, truthy: T -> bool)
    requires !truthy(n)
    ensures Step(c, Some(n), truthy) == Step(c, None, truthy)
  {
  }

  /** Awaiting the JavaScript step changes nothing either. */
  lemma {:induction false} AsyncMatchesSync<T>(c: RawContext<T>, found: Option<T>, truthy: T -> bool)
    ensures AsyncWalker.JsStep(c, found, truthy).outcome == Step(c, found, truthy)
  {
  }
}

=== FILE: context.dfy ===
/**
 The traversal context of `src/TreeWalkerContext.ts`: all traversal state,
 as plain data. Copying it (the source round-trips it through JSON) is the
 identity on this value type, so a copy resumes exactly where it was taken.
 */
module TreeWalkerContext {
  import opened Options
  import opened Mode

  /**
   `stack` holds the open ancestors, root first; `current` is the node the
   last step entered or closed; `status` is the outcome of the last step.
   */
  datatype Context<T> = Context(stack: seq<T>, status: Status, current: Option<T>)

  /** The context a traversal starts from: nothing visited yet. */
  function Empty<T>(): (c: Context<T>)
    ensures c.stack == [] && c.status == NONE && c.current == None
  {
    Context([], NONE, None)
  }

  /**
   `newTreeWalkerContext`: every field the caller supplies is kept as given;
   an omitted stack defaults to empty and an omitted status to NONE.
   `current` has no default, so omitting it leaves it absent.
   */
  function NewContext<T>(stack: Option<seq<T>>, status: Option<Status>, current: Option<T>): (c: Context<T>)
    ensures stack.Some? ==> c.stack == stack.value
    ensures stack.None? ==> c.stack == []
    ensures status.Some? ==> c.status == status.value
    ensures status.None? ==> c.status == NONE
    ensures c.current == current
  {
    Context(
      match stack case Some(s) => s case None => [],
      match status case Some(s) => s case None => NONE,
      current)
  }

  /** Called with no arguments, `newTreeWalkerContext` gives the starting context. */
  lemma NewContextDefaultsToEmpty<T>()
    ensures NewContext<T>(None, None, None) == Empty()
  {
  }
}

=== FILE: iterator.dfy ===
/**
 The iterators: `newTreeIterator` (`src/newTreeIterator.ts`),
 `newAsyncTreeIterator` (`src/newAsyncTreeIterator.ts`) and their JavaScript
 forms. Each drives a walker in a loop, passing `next` after an exit and
 `first` otherwise, stops when a step returns false, and yields the context
 after every step whose status meets the requested mode.
 */
module Iterator {
  import opened Options
  import opened Mode
  import opened TreeWalkerContext
  import opened Walker
  import JsWalker
  import AsyncWalker
  import Loop

  /** The contexts a walker step accepts, and the only ones it produces. */
  type Ready<T> = c: Context<T> | Pushable(c) witness Context([], NONE, None)

  /** The caller's lookups, and the truthiness the walker applies to nodes. */
  datatype Hooks<!T> = Hooks(first: Context<T> -> Option<T>, next: Context<T> -> Option<T>, truthy: T -> bool)

  /** Which walker drives the loop: the TypeScript one, or the JavaScript one with its truthiness test. */
  datatype Variant = Ts | Js

  /** The step as it runs, on the context as the program holds it. */
  function Running<T>(v: Variant, c: RawContext<T>, found: Option<T>, truthy: T -> bool): RawOutcome<T> {
    match v
    case Ts => RawStep(c, found, truthy)
    case Js => JsWalker.Step(c, found, truthy)
  }

  /**
   The step the loop drives, on a typed context: the JavaScript walker is
   the TypeScript step fed the truthy-filtered lookup.
   */
  function Walk<T>(v: Variant, c: Ready<T>, found: Option<T>, truthy: T -> bool): (o: Outcome<T>)
    ensures Pushable(o.ctx) && StepStatus(o.ctx.status) && (o.alive <==> o.ctx.status != NONE)
  {
    match v
    case Ts => Walker.Step(c, found, truthy)
    case Js => Walker.Step(c, JsWalker.KeepTruthy(found, truthy), truthy)
  }

  /** Either way, the step the loop drives is the step as it runs, read back as a typed context. */
  lemma {:induction false} WalkIsRunning<T>(v: Variant, c: Ready<T>, found: Option<T>, truthy: T -> bool)
    ensures RawOutcomeOf(Walk(v, c, found, truthy)) == Running(v, Raw(c), found, truthy)
  {
    match v
    case Ts => RawStepAgrees(c, found, truthy);
    case Js => JsWalker.OnTypedContexts(c, found, truthy);
  }

  /**
   The lookup for the next step: `next` when the status has an EXIT bit,
   `first` otherwise. Among the statuses a step leaves, that is `next` right
   after a LEAF or LAST outcome, and `first` after FIRST, NEXT or NONE.
   */
  function Load<T>(h: Hooks<T>, c: Context<T>): (lookup: Context<T> -> Option<T>)
    ensures c.status == LEAF || c.status == LAST ==> lookup == h.next
    ensures c.status == FIRST || c.status == NEXT || c.status == NONE ==> lookup == h.first
  {
    if IsExit(c.status) then h.next else h.first
  }

  /** One turn of the loop: choose the lookup and let the walker run it on the context it hands over. */
  function Advance<T>(v: Variant, h: Hooks<T>, c: Ready<T>): (o: Outcome<T>)
    ensures Pushable(o.ctx) && StepStatus(o.ctx.status) && (o.alive <==> o.ctx.status != NONE)
  {
    Walk(v, c, Load(h, c)(Prepare(c)), h.truthy)
  }

  /**
   A turn consults one lookup only: after a closing status nothing but `next`
   matters, and otherwise nothing but `first`.
   */
  lemma {:induction false} AdvanceConsultsOneLookup<T>(v: Variant, h: Hooks<T>, g: Hooks<T>, c: Ready<T>)
    requires h.truthy == g.truthy
    ensures IsExit(c.status) && h.next == g.next ==> Advance(v, h, c) == Advance(v, g, c)
    ensures !IsExit(c.status) && h.first == g.first ==> Advance(v, h, c) == Advance(v, g, c)
  {
  }

  function TurnOf<T>(v: Variant, h: Hooks<T>): Ready<T> -> Loop.Turn<Ready<T>, Event<T>> {
    (c: Ready<T>) => var o := Advance(v, h, c); Loop.Turn(o.ctx, o.events, o.alive)
  }

  /** The yield test of the loop: `context.status & mode`. */
  function Wanted<T>(mode: Status): Ready<T> -> bool {
    (c: Ready<T>) => Matches(c.status, mode)
  }

  /**
   At most `fuel` turns of the loop from `c`: every context a live step left
   behind, the ones yielded, the callbacks called, where it stopped, and
   whether the walker returned false.
   */
  function Iterate<T>(v: Variant, h: Hooks<T>, c: Ready<T>, mode: Status, fuel: nat): (r: Loop.Run<Ready<T>, Event<T>>)
    ensures |r.steps| <= fuel && (!r.done ==> |r.steps| == fuel)
  {
    Loop.Drive(TurnOf(v, h), Wanted(mode), c, fuel)
  }

  /** A live turn leaves a primary status behind, a dead one NONE. */
  lemma {:induction false} TurnStatus<T>(v: Variant, h: Hooks<T>, x: Ready<T>)
    ensures TurnOf(v, h)(x).alive ==> IsPrimary(TurnOf(v, h)(x).state.status)
    ensures !TurnOf(v, h)(x).alive ==> TurnOf(v, h)(x).state.status == NONE
  {
    var o := Advance(v, h, x);
    assert TurnOf(v, h)(x).state == o.ctx && TurnOf(v, h)(x).alive == o.alive;
  }

  /**
   The loop ends exactly when a step returns false, that is when the status
   becomes NONE, and no context it passed through has status NONE.
   */
  lemma {:induction false} IterateStopsOnNone<T>(v: Variant, h: Hooks<T>, c: Ready<T>, mode: Status, fuel: nat)
    ensures var r := Iterate(v, h, c, mode, fuel);
      && (forall s | s in r.steps :: IsPrimary(s.status))
      && (r.done ==> r.last.status == NONE)
  {
    var live := (s: Ready<T>) => IsPrimary(s.status);
    var dead := (s: Ready<T>) => s.status == NONE;
    var turn := TurnOf(v, h);
    forall x: Ready<T> ensures turn(x).alive ==> live(turn(x).state) && !turn(x).alive ==> dead(turn(x).state) {
      TurnStatus(v, h, x);
    }
    Loop.StepsSatisfy(turn, Wanted(mode), c, fuel, live, dead);
  }

  /**
   The loop yields exactly the contexts whose status meets the mode, in
   order, and none with status NONE.
   */
  lemma {:induction false} IterateYieldsMatchingSteps<T>(v: Variant, h: Hooks<T>, c: Ready<T>, mode: Status, fuel: nat)
    ensures var r := Iterate(v, h, c, mode, fuel);
      && r.yielded == Loop.Filter(r.steps, Wanted(mode))
      && (forall y | y in r.yielded :: Matches(y.status, mode) && IsPrimary(y.status))
      && (forall s | s in r.steps && Matches(s.status, mode) :: s in r.yielded)
  {
    IterateStopsOnNone(v, h, c, mode, fuel);
    Loop.YieldsAreWantedSteps(TurnOf(v, h), Wanted(mode), c, fuel);
    Loop.FilterKeepsWanted(Iterate(v, h, c, mode, fuel).steps, Wanted(mode));
  }

  /**
   Suspend and resume: stopping after `n` steps and starting a fresh
   iterator from the context reached (a copy of a value is the value) gives
   the same contexts, yields and callback calls as `n + m` steps at once.
   */
  lemma {:induction false} Resume<T>(v: Variant, h: Hooks<T>, c: Ready<T>, mode: Status, n: nat, m: nat)
    ensures var first := Iterate(v, h, c, mode, n);
      && (first.done ==> Iterate(v, h, c, mode, n + m) == first)
      && (!first.done ==> Iterate(v, h, c, mode, n + m) == Loop.Then(first, Iterate(v, h, first.last, mode, m)))
  {
    Loop.Resume(TurnOf(v, h), Wanted(mode), c, n, m);
  }

  /** The lookups as the JavaScript walker sees them: falsy nodes are no nodes. */
  function TruthyHooks<T>(h: Hooks<T>): (g: Hooks<T>)
    ensures g.truthy == h.truthy
  {
    Hooks(c => JsWalker.KeepTruthy(h.first(c), h.truthy),
          c => JsWalker.KeepTruthy(h.next(c), h.truthy),
          h.truthy)
  }

  /** Both filtered lookups answer no node, or a truthy one the caller's lookup returned. */
  lemma {:induction false} TruthyHooksDropFalsyNodes<T>(h: Hooks<T>, c: Context<T>)
    ensures var g := TruthyHooks(h);
      && (g.first(c).Some? <==> h.first(c).Some? && h.truthy(h.first(c).value))
      && (g.first(c).Some? ==> g.first(c) == h.first(c))
      && (g.next(c).Some? <==> h.next(c).Some? && h.truthy(h.next(c).value))
      && (g.next(c).Some? ==> g.next(c) == h.next(c))
  {
    var g := TruthyHooks(h);
    assert g.first(c) == JsWalker.KeepTruthy(h.first(c), h.truthy);
    assert g.next(c) == JsWalker.KeepTruthy(h.next(c), h.truthy);
  }

  /** The JavaScript loop is the TypeScript loop over truthiness-filtered lookups. */
  lemma {:induction false} JsLoopIsTsLoopOverTruthyLookups<T>(h: Hooks<T>, c: Ready<T>, mode: Status, fuel: nat)
    ensures Iterate(Js, h, c, mode, fuel) == Iterate(Ts, TruthyHooks(h), c, mode, fuel)
  {
    var g := TruthyHooks(h);
    forall x: Ready<T> ensures TurnOf(Js, h)(x) == TurnOf(Ts, g)(x) {
      assert Load(g, x)(Prepare(x)) == JsWalker.KeepTruthy(Load(h, x)(Prepare(x)), h.truthy);
    }
    Loop.DriveRespectsAgreement(TurnOf(Js, h), TurnOf(Ts, g), Wanted(mode), c, fuel);
  }

  /**
   When every node is truthy (objects, non-empty names), the JavaScript
   iterator runs exactly as the TypeScript one over the same lookups.
   */
  lemma {:induction false} TruthyNodesIterateAsInTs<T>(h: Hooks<T>, c: Ready<T>, mode: Status, fuel: nat)
    requires forall n :: h.truthy(n)
    ensures Iterate(Js, h, c, mode, fuel) == Iterate(Ts, h, c, mode, fuel)
  {
    forall x: Ready<T> ensures TurnOf(Js, h)(x) == TurnOf(Ts, h)(x) {
      var found := Load(h, x)(Prepare(x));
      assert JsWalker.KeepTruthy(found, h.truthy) == found;
    }
    Loop.DriveRespectsAgreement(TurnOf(Js, h), TurnOf(Ts, h), Wanted(mode), c, fuel);
  }

  /** The suspending step as it runs, with its suspension points. */
  function Suspending<T>(v: Variant, c: RawContext<T>, found: Option<T>, truthy: T -> bool): AsyncWalker.Awaited<RawOutcome<T>> {
    match v
    case Ts => AsyncWalker.Step(c, found, truthy)
    case Js => AsyncWalker.JsStep(c, found, truthy)
  }

  /**
   One turn of the suspending loop: the suspending walker step as it runs,
   on the context as the program holds it, read back as a typed context.
   */
  function AsyncAdvance<T>(v: Variant, h: Hooks<T>, c: Ready<T>): (w: AsyncWalker.Awaited<Outcome<T>>)
    ensures Pushable(w.outcome.ctx) && StepStatus(w.outcome.ctx.status)
    ensures w.outcome.alive <==> w.outcome.ctx.status != NONE
    ensures AsyncWalker.AwaitLookup in w.suspensions && AsyncWalker.InOrder(w.suspensions)
    ensures (AsyncWalker.AwaitAfter in w.suspensions) <==> IsExit(c.status)
  {
    var found := Load(h, c)(Prepare(c));
    var s := Suspending(v, Raw(c), found, h.truthy);
    SuspendingIsWalk(v, c, found, h.truthy);
    AsyncWalker.Awaited(Outcome(Lower(s.outcome.ctx), s.outcome.events, s.outcome.alive), s.suspensions)
  }

  /** Whichever walker, the suspending step's outcome is the typed step the loop drives, as it runs. */
  lemma {:induction false} SuspendingIsWalk<T>(v: Variant, c: Ready<T>, found: Option<T>, truthy: T -> bool)
    ensures Suspending(v, Raw(c), found, truthy).outcome == RawOutcomeOf(Walk(v, c, found, truthy))
  {
    WalkIsRunning(v, c, found, truthy);
    AsyncWalker.MatchesSync(Raw(c), found, truthy);
    JsWalker.AsyncMatchesSync(Raw(c), found, truthy);
  }

  /**
   A turn of the suspending loop is the suspending walker step as it runs:
   the same outcome once read back, and the same suspension points.
   */
  lemma {:induction false} AsyncAdvanceIsSuspending<T>(v: Variant, h: Hooks<T>, c: Ready<T>)
    ensures var found := Load(h, c)(Prepare(c));
      && RawOutcomeOf(AsyncAdvance(v, h, c).outcome) == Suspending(v, Raw(c), found, h.truthy).outcome
      && AsyncAdvance(v, h, c).suspensions == Suspending(v, Raw(c), found, h.truthy).suspensions
  {
    SuspendingIsWalk(v, c, Load(h, c)(Prepare(c)), h.truthy);
  }

  /** Awaiting changes nothing in the outcome: a suspending turn ends where the synchronous turn does. */
  lemma {:induction false} AsyncAdvanceIsAdvance<T>(v: Variant, h: Hooks<T>, c: Ready<T>)
    ensures AsyncAdvance(v, h, c).outcome == Advance(v, h, c)
  {
    var found := Load(h, c)(Prepare(c));
    SuspendingIsWalk(v, c, found, h.truthy);
    LowerUndoesRaw(Walk(v, c, found, h.truthy).ctx);
  }

  function AsyncTurnOf<T>(v: Variant, h: Hooks<T>): Ready<T> -> Loop.Turn<Ready<T>, Event<T>> {
    (c: Ready<T>) => var o := AsyncAdvance(v, h, c).outcome; Loop.Turn(o.ctx, o.events, o.alive)
  }

  /** The suspending iterator's loop. */
  function AsyncIterate<T>(v: Variant, h: Hooks<T>, c: Ready<T>, mode: Status, fuel: nat): (r: Loop.Run<Ready<T>, Event<T>>)
    ensures |r.steps| <= fuel && (!r.done ==> |r.steps| == fuel)
  {
    Loop.Drive(AsyncTurnOf(v, h), Wanted(mode), c, fuel)
  }

  /** Awaiting every callback leaves the run exactly as the synchronous loop's. */
  lemma {:induction false} AsyncIterateMatchesSync<T>(v: Variant, h: Hooks<T>, c: Ready<T>, mode: Status, fuel: nat)
    ensures AsyncIterate(v, h, c, mode, fuel) == Iterate(v, h, c, mode, fuel)
  {
    forall x: Ready<T> ensures AsyncTurnOf(v, h)(x) == TurnOf(v, h)(x) {
      AsyncAdvanceIsAdvance(v, h, x);
    }
    Loop.DriveRespectsAgreement(AsyncTurnOf(v, h), TurnOf(v, h), Wanted(mode), c, fuel);
  }

  /** The four iterator entry points of the repository. */
  datatype Flavour = TsSync | TsAsync | JsSync | JsAsync

  /**
   The mode used when the caller gives none: LEAF, except for the JavaScript
   suspending iterator, whose default is ENTER.
   */
  function ModeOrDefault(f: Flavour, mode: Option<Status>): (m: Status)
    ensures mode.Some? ==> m == mode.value
    ensures mode.None? && f != JsAsync ==> m == LEAF
    ensures mode.None? && f == JsAsync ==> m == ENTER
  {
    match mode
    case Some(m) => m
    case None => if f == JsAsync then ENTER else LEAF
  }

  /** The first context the loop passes through is the one the first turn leaves. */
  lemma {:induction false} FirstStepIsAdvance<T>(v: Variant, h: Hooks<T>, c: Ready<T>, mode: Status, fuel: nat)
    ensures var r := Iterate(v, h, c, mode, fuel); r.steps == [] || r.steps[0] == Advance(v, h, c).ctx
  {
    if fuel > 0 {
      assert TurnOf(v, h)(c).state == Advance(v, h, c).ctx;
    }
  }

  /**
   An iterator as a caller creates it. The TypeScript iterators start from
   the empty context when given none; the JavaScript ones read
   `context.status` straight away and so need one.
   */
  function NewIterator<T>(f: Flavour, h: Hooks<T>, context: Option<Ready<T>>, mode: Option<Status>, fuel: nat)
    : (r: Loop.Run<Ready<T>, Event<T>>)
    requires (f == JsSync || f == JsAsync) ==> context.Some?
    ensures context.Some? ==> r.steps == [] || r.steps[0] == Advance(if f == JsSync || f == JsAsync then Js else Ts, h, context.value).ctx
    ensures context.None? ==> r == Iterate(Ts, h, Empty(), ModeOrDefault(f, mode), fuel)
    ensures r == Iterate(if f == JsSync || f == JsAsync then Js else Ts, h,
                         match context case Some(c) => c case None => Empty(), ModeOrDefault(f, mode), fuel)
  {
    var v := if f == JsSync || f == JsAsync then Js else Ts;
    var c: Ready<T> := match context case Some(c) => c case None => Empty();
    var m := ModeOrDefault(f, mode);
    AsyncIterateMatchesSync(v, h, c, m, fuel);
    FirstStepIsAdvance(v, h, c, m, fuel);
    if f == TsAsync || f == JsAsync then AsyncIterate(v, h, c, m, fuel) else Iterate(v, h, c, m, fuel)
  }
}

=== FILE: loop.dfy ===
/**
 The driving loop shared by every iterator of the repository, over any
 state: take a turn, stop when the turn reports false, otherwise keep the
 state reached and yield it when it is one the caller asked for.
 A generator that is consumed step by step becomes a function of a step
 budget.
 */
module Loop {

  /** The outcome of one turn: the state reached, what it emitted, and whether the loop goes on. */
  datatype Turn<S, E> = Turn(state: S, emitted: seq<E>, alive: bool)

  /**
   What a bounded run did: every state a live turn reached, the ones
   yielded, everything emitted (by the final turn too), the state it
   stopped at, and whether it stopped because a turn reported false.
   */
  datatype Run<S, E> = Run(steps: seq<S>, yielded: seq<S>, emitted: seq<E>, last: S, done: bool)

  /** The states of `steps` that `wanted` selects, in order. */
  function Filter<S>(steps: seq<S>, wanted: S -> bool): seq<S>
  {
    if steps == [] then []
    else (if wanted(steps[0]) then [steps[0]] else []) + Filter(steps[1..], wanted)
  }

  lemma {:induction false} FilterAppend<S>(a: seq<S>, b: seq<S>, wanted: S -> bool)
    ensures Filter(a + b, wanted) == Filter(a, wanted) + Filter(b, wanted)
    decreases |a|
  {
    if a == [] {
      assert a + b == b;
    } else {
      var head := if wanted(a[0]) then [a[0]] else [];
      assert (a + b)[0] == a[0];
      assert (a + b)[1..] == a[1..] + b;
      assert Filter(a + b, wanted) == head + Filter(a[1..] + b, wanted);
      assert Filter(a, wanted) == head + Filter(a[1..], wanted);
      FilterAppend(a[1..], b, wanted);
      assert head + (Filter(a[1..], wanted) + Filter(b, wanted)) == (head + Filter(a[1..], wanted)) + Filter(b, wanted);
    }
  }

  /** Every state kept by the filter is in the input and is wanted. */
  lemma {:induction false} FilterKeepsWanted<S>(steps: seq<S>, wanted: S -> bool)
    ensures forall y | y in Filter(steps, wanted) :: y in steps && wanted(y)
    ensures forall s | s in steps && wanted(s) :: s in Filter(steps, wanted)
    decreases |steps|
  {
    if steps != [] {
      FilterKeepsWanted(steps[1..], wanted);
      assert steps == [steps[0]] + steps[1..];
    }
  }

  /** At most `fuel` turns from `s`. */
  function Drive<S, E>(turn: S -> Turn<S, E>, wanted: S -> bool, s: S, fuel: nat): (r: Run<S, E>)
    ensures r.done ==> |r.steps| < fuel
    ensures !r.done ==> |r.steps| == fuel
    decreases fuel
  {
    if fuel == 0 then Run([], [], [], s, false)
    else
      var t := turn(s);
      if !t.alive then Run([], [], t.emitted, t.state, true)
      else
        var rest := Drive(turn, wanted, t.state, fuel - 1);
        Run([t.state] + rest.steps, (if wanted(t.state) then [t.state] else []) + rest.yielded,
            t.emitted + rest.emitted, rest.last, rest.done)
  }

  /** The loop yields exactly the reached states that are wanted, in order. */
  lemma {:induction false} YieldsAreWantedSteps<S, E>(turn: S -> Turn<S, E>, wanted: S -> bool, s: S, fuel: nat)
    ensures Drive(turn, wanted, s, fuel).yielded == Filter(Drive(turn, wanted, s, fuel).steps, wanted)
    decreases fuel
  {
    if fuel > 0 && turn(s).alive {
      var t := turn(s);
      YieldsAreWantedSteps(turn, wanted, t.state, fuel - 1);
      var rest := Drive(turn, wanted, t.state, fuel - 1);
      assert ([t.state] + rest.steps)[0] == t.state;
      assert ([t.state] + rest.steps)[1..] == rest.steps;
    }
  }

  /** A live first turn contributes its state and its emissions in front of the rest of the run. */
  lemma {:induction false} LiveTurnLeads<S, E>(turn: S -> Turn<S, E>, wanted: S -> bool, s: S, n: nat)
    requires turn(s).alive
    ensures var r := Drive(turn, wanted, s, n + 1);
      var rest := Drive(turn, wanted, turn(s).state, n);
      && r.steps == [turn(s).state] + rest.steps
      && r.emitted == turn(s).emitted + rest.emitted
      && r.last == rest.last && r.done == rest.done
  {
  }

  /** A first turn that reports false ends the run at once, with only its emissions. */
  lemma {:induction false} DeadTurnEnds<S, E>(turn: S -> Turn<S, E>, wanted: S -> bool, s: S, n: nat)
    requires !turn(s).alive && n > 0
    ensures var r := Drive(turn, wanted, s, n);
      r.steps == [] && r.emitted == turn(s).emitted && r.last == turn(s).state && r.done
  {
  }

  /**
   A live first turn, then `n1` turns that do not finish, then `n2` more:
   the pieces of the run, in order.
   */
  lemma {:induction false} Compose<S, E>(turn: S -> Turn<S, E>, wanted: S -> bool, s: S, n1: nat, n2: nat)
    requires turn(s).alive && !Drive(turn, wanted, turn(s).state, n1).done
    ensures var a := Drive(turn, wanted, turn(s).state, n1);
      var b := Drive(turn, wanted, a.last, n2);
      var r := Drive(turn, wanted, s, 1 + n1 + n2);
      && r.steps == [turn(s).state] + a.steps + b.steps
      && r.emitted == turn(s).emitted + a.emitted + b.emitted
      && r.last == b.last && r.done == b.done
  {
    var a := Drive(turn, wanted, turn(s).state, n1);
    var b := Drive(turn, wanted, a.last, n2);
    LiveTurnLeads(turn, wanted, s, n1 + n2);
    Resume(turn, wanted, turn(s).state, n1, n2);
    ConcatAssoc([turn(s).state], a.steps, b.steps);
    ConcatAssoc(turn(s).emitted, a.emitted, b.emitted);
  }

  /** `n` turns from `s` pass through `steps`, emit `emitted`, and stop, unfinished, at `last`. */
  predicate Reaches<S(==), E(==)>(turn: S -> Turn<S, E>, wanted: S -> bool, s: S, n: nat, steps: seq<S>, emitted: seq<E>, last: S) {
    var r := Drive(turn, wanted, s, n);
    r.steps == steps && r.emitted == emitted && r.last == last && !r.done
  }

  /** A live turn, then two unfinished runs one after the other. */
  lemma {:induction false} Chain<S, E>(turn: S -> Turn<S, E>, wanted: S -> bool, s: S, n1: nat, n2: nat,
                            steps1: seq<S>, emitted1: seq<E>, last1: S, steps2: seq<S>, emitted2: seq<E>, last2: S)
    requires turn(s).alive
    requires Reaches(turn, wanted, turn(s).state, n1, steps1, emitted1, last1)
    requires Reaches(turn, wanted, last1, n2, steps2, emitted2, last2)
    ensures Reaches(turn, wanted, s, 1 + n1 + n2, [turn(s).state] + steps1 + steps2, turn(s).emitted + emitted1 + emitted2, last2)
  {
    Compose(turn, wanted, s, n1, n2);
  }

  /** What the loop passes through, emits and stops at does not depend on what it yields. */
  lemma {:induction false} YieldsDoNotSteer<S, E>(turn: S -> Turn<S, E>, w1: S -> bool, w2: S -> bool, s: S, fuel: nat)
    ensures var a := Drive(turn, w1, s, fuel);
      var b := Drive(turn, w2, s, fuel);
      a.steps == b.steps && a.emitted == b.emitted && a.last == b.last && a.done == b.done
    decreases fuel
  {
    if fuel > 0 && turn(s).alive {
      YieldsDoNotSteer(turn, w1, w2, turn(s).state, fuel - 1);
    }
  }

  /** One run followed by another. */
  function Then<S, E>(a: Run<S, E>, b: Run<S, E>): Run<S, E> {
    Run(a.steps + b.steps, a.yielded + b.yielded, a.emitted + b.emitted, b.last, b.done)
  }

  lemma {:induction false} ConcatAssoc<X>(p: seq<X>, q: seq<X>, r: seq<X>)
    ensures p + (q + r) == (p + q) + r
  {
  }

  /**
   Stopping after `n` turns and starting a fresh loop from the state
   reached gives the same steps, yields and emissions as `n + m` turns at
   once; a run that already finished stays finished.
   */
  lemma {:induction false} Resume<S, E>(turn: S -> Turn<S, E>, wanted: S -> bool, s: S, n: nat, m: nat)
    ensures Drive(turn, wanted, s, n).done ==> Drive(turn, wanted, s, n + m) == Drive(turn, wanted, s, n)
    ensures !Drive(turn, wanted, s, n).done ==>
              Drive(turn, wanted, s, n + m)
              == Then(Drive(turn, wanted, s, n), Drive(turn, wanted, Drive(turn, wanted, s, n).last, m))
    decreases n
  {
    if n == 0 {
      var rest := Drive(turn, wanted, s, m);
      assert [] + rest.steps == rest.steps && [] + rest.yielded == rest.yielded && [] + rest.emitted == rest.emitted;
    } else {
      var t := turn(s);
      if t.alive {
        Resume(turn, wanted, t.state, n - 1, m);
        var a := Drive(turn, wanted, t.state, n - 1);
        if !a.done {
          var b := Drive(turn, wanted, a.last, m);
          ConcatAssoc([t.state], a.steps, b.steps);
          ConcatAssoc(if wanted(t.state) then [t.state] else [], a.yielded, b.yielded);
          ConcatAssoc(t.emitted, a.emitted, b.emitted);
        }
      }
    }
  }

  /**
   A property every live turn leaves behind holds of every state the run
   reached; one every final turn leaves behind holds where a finished run
   stopped.
   */
  lemma {:induction false} StepsSatisfy<S, E>(turn: S -> Turn<S, E>, wanted: S -> bool, s: S, fuel: nat,
                                              live: S -> bool, dead: S -> bool)
    requires forall x :: turn(x).alive ==> live(turn(x).state)
    requires forall x :: !turn(x).alive ==> dead(turn(x).state)
    ensures forall y | y in Drive(turn, wanted, s, fuel).steps :: live(y)
    ensures Drive(turn, wanted, s, fuel).done ==> dead(Drive(turn, wanted, s, fuel).last)
    decreases fuel
  {
    if fuel > 0 && turn(s).alive {
      StepsSatisfy(turn, wanted, turn(s).state, fuel - 1, live, dead);
    }
  }

  /** Two turn functions that agree everywhere drive the same run. */
  lemma {:induction false} DriveRespectsAgreement<S, E>(f: S -> Turn<S, E>, g: S -> Turn<S, E>, wanted: S -> bool, s: S, fuel: nat)
    requires forall x :: f(x) == g(x)
    ensures Drive(f, wanted, s, fuel) == Drive(g, wanted, s, fuel)
    decreases fuel
  {
    if fuel > 0 && f(s).alive {
      DriveRespectsAgreement(f, g, wanted, f(s).state, fuel - 1);
    }
  }
}

=== FILE: mode.dfy ===
/**
 The traversal status bitmask of `src/TreeWalkerContext.ts`.

 A walker step ends in one of four outcomes, each a single bit, or in NONE
 once traversal is over. ENTER and EXIT group the outcomes so that "was a
 node just entered" and "was a node just left" are one bitwise AND each.
 JavaScript's `&` works on 32-bit integers, so a status is a `bv32`.
 */
module Mode {

  type Status = bv32

  const NONE: Status := 0
  const FIRST: Status := 1
  const NEXT: Status := 2
  const LEAF: Status := 4
  const LAST: Status := 8

  const ENTER: Status := FIRST | NEXT
  const EXIT: Status := LEAF | LAST

  /** `status & mask` is non-zero: the test every consumer of a status makes. */
  predicate Matches(status: Status, mask: Status) {
    status & mask != 0
  }

  predicate IsEnter(status: Status) {
    Matches(status, ENTER)
  }

  predicate IsExit(status: Status) {
    Matches(status, EXIT)
  }

  /** The four outcomes a walker step can end in while traversal is alive. */
  predicate IsPrimary(status: Status) {
    status == FIRST || status == NEXT || status == LEAF || status == LAST
  }

  /** A status has exactly one bit set. */
  predicate SingleBit(status: Status) {
    status != 0 && status & (status - 1) == 0
  }

  lemma PrimaryBitsAreDistinctSingleBits()
    ensures FIRST == 1 && NEXT == 2 && LEAF == 4 && LAST == 8
    ensures SingleBit(FIRST) && SingleBit(NEXT) && SingleBit(LEAF) && SingleBit(LAST)
    ensures FIRST & NEXT == 0 && FIRST & LEAF == 0 && FIRST & LAST == 0
    ensures NEXT & LEAF == 0 && NEXT & LAST == 0 && LEAF & LAST == 0
  {
  }

  lemma GroupsAreDisjoint()
    ensures ENTER == 3 && EXIT == 12
    ensures ENTER & EXIT == 0
  {
  }

  /** Each outcome is an entry or an exit, never both. */
  lemma {:induction false} EachPrimaryInExactlyOneGroup(s: Status)
    requires IsPrimary(s)
    ensures IsEnter(s) != IsExit(s)
    ensures IsEnter(s) <==> (s == FIRST || s == NEXT)
    ensures IsExit(s) <==> (s == LEAF || s == LAST)
  {
  }

  /** The terminal status intersects no mask at all. */
  lemma {:induction false} NoneMatchesNothing(mask: Status)
    ensures !Matches(NONE, mask)
    ensures !IsEnter(NONE) && !IsExit(NONE)
  {
  }
}

/**
 The JavaScript copy of the bitmask, `src/MODE.js`, written as that file
 writes it, with the groupings spelled as literal ORs.
 */
module ModeJs {
  import Mode

  const NONE: Mode.Status := 0
  const FIRST: Mode.Status := 1
  const NEXT: Mode.Status := 2
  const LEAF: Mode.Status := 4
  const LAST: Mode.Status := 8
  const ENTER: Mode.Status := 1 | 2
  const EXIT: Mode.Status := 4 | 8

  /** The JavaScript table and the TypeScript table are the same bitmask. */
  lemma AgreesWithTypeScript()
    ensures NONE == Mode.NONE && FIRST == Mode.FIRST && NEXT == Mode.NEXT
    ensures LEAF == Mode.LEAF && LAST == Mode.LAST
    ensures ENTER == Mode.ENTER && EXIT == Mode.EXIT
  {
  }

  /** ENTER and EXIT split the four outcomes between them, and NONE is in neither. */
  lemma GroupsPartitionOutcomes()
    ensures ENTER & EXIT == 0
    ensures ENTER | EXIT == FIRST | NEXT | LEAF | LAST
    ensures FIRST & ENTER != 0 && NEXT & ENTER != 0
    ensures LEAF & EXIT != 0 && LAST & EXIT != 0
    ensures NONE & ENTER == 0 && NONE & EXIT == 0
  {
  }
}

=== FILE: nesting.dfy ===
/**
 Driving the walker by hand, one lookup result per step, as
 `test/newTreeWalker.test.js` does with the JavaScript walker: whatever the
 sequence of lookup answers, the `before`/`after` calls are properly nested,
 each `after` closing the innermost node still open, at the depth it was
 opened at. The TypeScript walker keeps this only while the nodes it is
 given are truthy: it enters a defined falsy node, and popping that node
 later ends the walk before its `after` (`TsFalsyNodeLeftOpen`).
 */
module Nesting {
  import opened Options
  import opened Mode
  import opened TreeWalkerContext
  import opened Walker
  import JsWalker

  /**
   Replays callback calls against the list of open nodes, outermost first:
   `before` opens a node one level below the open ones, `after` must close
   the innermost open node at its own depth. None on the first mismatch.
   */
  function Replay<T(==)>(open: seq<T>, events: seq<Event<T>>): Option<seq<T>>
    decreases |events|
  {
    if events == [] then Some(open)
    else match events[0]
      case Before(n, d) =>
        if d == |open| then Replay(open + [n], events[1..]) else None
      case After(n, d) =>
        if |open| > 0 && n == Some(open[|open| - 1]) && d == |open| - 1
        then Replay(open[..|open| - 1], events[1..]) else None
  }

  /** Replaying two runs of calls is replaying the first, then the second from where it left. */
  lemma {:induction false} ReplayAppend<T>(open: seq<T>, a: seq<Event<T>>, b: seq<Event<T>>)
    ensures Replay(open, a + b) ==
      (match Replay(open, a) case None => None case Some(o) => Replay(o, b))
    decreases |a|
  {
    if a == [] {
      assert a + b == b;
    } else {
      assert (a + b)[0] == a[0];
      assert (a + b)[1..] == a[1..] + b;
      match a[0]
      case Before(n, d) =>
        if d == |open| {
          ReplayAppend(open + [n], a[1..], b);
        }
      case After(n, d) =>
        if |open| > 0 && n == Some(open[|open| - 1]) && d == |open| - 1 {
          ReplayAppend(open[..|open| - 1], a[1..], b);
        }
    }
  }

  /**
   The contexts a walker started from the empty context can be in, when only
   truthy nodes are ever entered: every node on the stack and the current
   one are truthy.
   */
  predicate Reachable<T>(c: Context<T>, truthy: T -> bool) {
    || (c.status == NONE && c.stack == [] && c.current == None)
    || (&& IsPrimary(c.status) && c.current.Some? && truthy(c.current.value)
        && AllOf(c.stack, truthy))
  }

  /**
   The nodes whose `before` has been called and whose `after` has not: the
   ancestors, and `current` (after an exit its `after` is still to come,
   at the start of the next step).
   */
  function Open<T>(c: Context<T>): seq<T> {
    c.stack + (if c.current.Some? then [c.current.value] else [])
  }

  /** The `after` call of a step, if any, closes `current` and leaves open the stack `getNode` sees. */
  lemma {:induction false} ExitCloses<T>(c: Context<T>, found: Option<T>, truthy: T -> bool)
    requires Reachable(c, truthy)
    ensures Replay(Open(c), Step(c, found, truthy).events) == Replay(Prepare(c).stack, EnterCall(found, |Prepare(c).stack|))
  {
    var r := Step(c, found, truthy);
    var open := Open(c);
    StepEffect(c, found, truthy);
    if IsExit(c.status) {
      EachPrimaryInExactlyOneGroup(c.status);
      assert open[..|open| - 1] == c.stack == Prepare(c).stack;
      assert r.events[0] == After(c.current, |c.stack|);
      assert r.events[1..] == EnterCall(found, |Prepare(c).stack|);
    } else {
      assert r.events == EnterCall(found, |Prepare(c).stack|);
      assert open == Prepare(c).stack;
    }
  }

  /** Every node of a sequence is truthy. */
  predicate AllOf<T>(nodes: seq<T>, truthy: T -> bool) {
    forall i :: 0 <= i < |nodes| ==> truthy(nodes[i])
  }

  /** The stack `getNode` is handed holds only truthy nodes. */
  lemma {:induction false} PreparedTruthy<T>(c: Context<T>, truthy: T -> bool)
    requires Reachable(c, truthy)
    ensures AllOf(Prepare(c).stack, truthy)
  {
    var mid := Prepare(c).stack;
    if IsEnter(c.status) {
      assert mid == c.stack + [c.current.value];
      forall i | 0 <= i < |mid| ensures truthy(mid[i]) {
        if i < |c.stack| { assert mid[i] == c.stack[i]; }
      }
    }
  }

  /** Popping a truthy stack leaves a truthy node and a truthy rest. */
  lemma {:induction false} PopTruthy<T>(rest: seq<T>, top: T, truthy: T -> bool)
    requires AllOf(rest + [top], truthy)
    ensures truthy(top) && AllOf(rest, truthy)
  {
    var whole := rest + [top];
    assert whole[|rest|] == top;
    forall i | 0 <= i < |rest| ensures truthy(rest[i]) {
      assert whole[i] == rest[i];
    }
  }

  /**
   The `before` call of a step, if any, opens the node found; otherwise the
   pop closes nothing yet. A node found must be truthy, as the JavaScript
   walker's `if (node)` ensures.
   */
  lemma {:induction false} EnterOpens<T>(c: Context<T>, found: Option<T>, truthy: T -> bool)
    requires Reachable(c, truthy)
    requires found.Some? ==> truthy(found.value)
    ensures Reachable(Step(c, found, truthy).ctx, truthy)
    ensures Replay(Prepare(c).stack, EnterCall(found, |Prepare(c).stack|)) == Some(Open(Step(c, found, truthy).ctx))
  {
    var r := Step(c, found, truthy);
    var mid := Prepare(c).stack;
    StepEffect(c, found, truthy);
    PreparedTruthy(c, truthy);
    if found.Some? {
      var calls := EnterCall(found, |mid|);
      assert calls[0] == Before(found.value, |mid|) && calls[1..] == [];
      assert Replay(mid, calls) == Replay(mid + [found.value], []);
      assert r.ctx.stack == mid && r.ctx.current == found;
    } else if |mid| > 0 {
      assert mid == r.ctx.stack + [r.ctx.current.value];
      PopTruthy(r.ctx.stack, r.ctx.current.value, truthy);
      assert IsPrimary(r.ctx.status);
    }
  }

  /** One step keeps the calls made so far nested, and the open nodes in step with the context. */
  lemma {:induction false} StepKeepsNesting<T>(c: Context<T>, found: Option<T>, truthy: T -> bool)
    requires Reachable(c, truthy)
    requires found.Some? ==> truthy(found.value)
    ensures Reachable(Step(c, found, truthy).ctx, truthy)
    ensures Replay(Open(c), Step(c, found, truthy).events) == Some(Open(Step(c, found, truthy).ctx))
  {
    ExitCloses(c, found, truthy);
    EnterOpens(c, found, truthy);
  }

  /** The result of feeding lookup results to the walker, one per step. */
  datatype Fed<T> = Fed(ctx: Context<T>, events: seq<Event<T>>, results: seq<bool>)

  /**
   The JavaScript walker fed one lookup answer per step, as the test drives
   it: each step is the typed step on the truthy-filtered answer, which is
   `JsWalker.Step` by `JsWalker.OnTypedContexts`.
   */
  function Feed<T>(c: Context<T>, tokens: seq<Option<T>>, truthy: T -> bool): (r: Fed<T>)
    requires Pushable(c)
    ensures |r.results| == |tokens|
    decreases |tokens|
  {
    if tokens == [] then Fed(c, [], [])
    else
      var o := Step(c, JsWalker.KeepTruthy(tokens[0], truthy), truthy);
      var rest := Feed(o.ctx, tokens[1..], truthy);
      Fed(rest.ctx, o.events + rest.events, [o.alive] + rest.results)
  }

  /** The TypeScript walker fed one lookup answer per step: a defined answer is entered whether or not it is truthy. */
  function TsFeed<T>(c: Context<T>, tokens: seq<Option<T>>, truthy: T -> bool): (r: Fed<T>)
    requires Pushable(c)
    ensures |r.results| == |tokens|
    decreases |tokens|
  {
    if tokens == [] then Fed(c, [], [])
    else
      var o := Step(c, tokens[0], truthy);
      var rest := TsFeed(o.ctx, tokens[1..], truthy);
      Fed(rest.ctx, o.events + rest.events, [o.alive] + rest.results)
  }

  /** Every defined answer is a truthy node (objects, non-empty names). */
  predicate TruthyTokens<T>(tokens: seq<Option<T>>, truthy: T -> bool) {
    forall i :: 0 <= i < |tokens| && tokens[i].Some? ==> truthy(tokens[i].value)
  }

  /** On answers that are absent or truthy, the TypeScript walker does what the JavaScript one does. */
  lemma {:induction false} TsFeedAgrees<T>(c: Context<T>, tokens: seq<Option<T>>, truthy: T -> bool)
    requires Pushable(c) && TruthyTokens(tokens, truthy)
    ensures TsFeed(c, tokens, truthy) == Feed(c, tokens, truthy)
    decreases |tokens|
  {
    if tokens != [] {
      assert JsWalker.KeepTruthy(tokens[0], truthy) == tokens[0];
      var o := Step(c, tokens[0], truthy);
      assert TruthyTokens(tokens[1..], truthy) by {
        forall i | 0 <= i < |tokens[1..]| && tokens[1..][i].Some? ensures truthy(tokens[1..][i].value) {
          assert tokens[1..][i] == tokens[i + 1];
        }
      }
      TsFeedAgrees(o.ctx, tokens[1..], truthy);
    }
  }

  /** Any answer sequence keeps the calls nested, with the still-open nodes exactly `Open` of the context reached. */
  lemma {:induction false} FeedKeepsNesting<T>(c: Context<T>, tokens: seq<Option<T>>, truthy: T -> bool)
    requires Reachable(c, truthy)
    ensures Reachable(Feed(c, tokens, truthy).ctx, truthy)
    ensures Replay(Open(c), Feed(c, tokens, truthy).events) == Some(Open(Feed(c, tokens, truthy).ctx))
    decreases |tokens|
  {
    if tokens != [] {
      var found := JsWalker.KeepTruthy(tokens[0], truthy);
      var o := Step(c, found, truthy);
      StepKeepsNesting(c, found, truthy);
      FeedKeepsNesting(o.ctx, tokens[1..], truthy);
      ReplayAppend(Open(c), o.events, Feed(o.ctx, tokens[1..], truthy).events);
    }
  }

  /**
   From the empty context the calls are properly nested, and once the walker
   has returned false every `before` has had its matching `after`.
   */
  lemma {:induction false} BalancedOnceFinished<T>(tokens: seq<Option<T>>, truthy: T -> bool)
    ensures var r := Feed(Empty<T>(), tokens, truthy);
      && Replay([], r.events).Some?
      && (r.ctx.status == NONE ==> Replay([], r.events) == Some([]))
  {
    FeedKeepsNesting(Empty<T>(), tokens, truthy);
  }

  /** The TypeScript walker stays nested whenever every node it is handed is truthy, objects for instance. */
  lemma {:induction false} TsBalancedOnTruthyAnswers<T>(tokens: seq<Option<T>>, truthy: T -> bool)
    requires TruthyTokens(tokens, truthy)
    ensures var r := TsFeed(Empty<T>(), tokens, truthy);
      && Replay([], r.events).Some?
      && (r.ctx.status == NONE ==> Replay([], r.events) == Some([]))
  {
    TsFeedAgrees(Empty<T>(), tokens, truthy);
    BalancedOnceFinished(tokens, truthy);
  }

  /**
   The TypeScript walker on number nodes, `0` being falsy: it enters 1 and
   then 0, and the next lookup-less step pops 0 and stops with status NONE,
   so neither node ever gets its `after`.
   */
  lemma TsFalsyNodeLeftOpen()
    ensures var r := TsFeed(Empty<int>(), [Some(1), Some(0), None], (n: int) => n != 0);
      && r.results == [true, true, false]
      && r.ctx == Context([1], NONE, Some(0))
      && r.events == [Before(1, 0), Before(0, 1)]
      && Replay([], r.events) == Some([1, 0])
  {
    var truthy := (n: int) => n != 0;
    var c0 := Empty<int>();
    var c1 := Context([], FIRST, Some(1));
    var c2 := Context([1], FIRST, Some(0));
    assert Step(c0, Some(1), truthy) == Outcome(c1, [Before(1, 0)], true);
    assert Step(c1, Some(0), truthy) == Outcome(c2, [Before(0, 1)], true);
    assert Step(c2, None, truthy) == Outcome(Context([1], NONE, Some(0)), [], false);
    var tokens: seq<Option<int>> := [Some(1), Some(0), None];
    assert tokens[1..] == [Some(0), None] && tokens[1..][1..] == [None] && |tokens[1..][1..][1..]| == 0;
    var events := [Before(1, 0), Before(0, 1)];
    var last: seq<Event<int>> := [Before(0, 1)];
    assert events[1..] == last && |last[1..]| == 0;
    assert [] + [1] == [1] && [1] + [0] == [1, 0];
    assert Replay([], events) == Replay([1], last) == Replay([1, 0], last[1..]);
  }
}

=== FILE: options.dfy ===
/** The presence or absence of a value: the model of a node that may be `undefined`. */
module Options {

  datatype Option<+T> = None | Some(value: T)
}

=== FILE: orders.dfy ===
/**
 What the iterator yields over a tree, for the modes the repository's tests
 use: ENTER gives the pre-order, EXIT the post-order, LEAF the childless
 nodes, and ENTER|EXIT every node twice, on entry and on exit.

 The yielded contexts are projected on their current nodes (`Currents`).
 `Yields` computes that projection directly from the tree for any mode;
 `SubtreeYields` connects it with the contexts of the traversal once, and
 the order lemmas then only reason about trees.
 */
module Orders {
  import opened Options
  import opened Mode
  import opened TreeWalkerContext
  import opened Iterator
  import opened Traversal
  import Loop

  /** The current nodes of a sequence of contexts, in order (a context with none contributes nothing). */
  function Currents<L>(cs: seq<Ready<Tree<L>>>): seq<Tree<L>> {
    if cs == [] then []
    else (match cs[0].current case Some(n) => [n] case None => []) + Currents(cs[1..])
  }

  lemma {:induction false} CurrentsAppend<L>(a: seq<Ready<Tree<L>>>, b: seq<Ready<Tree<L>>>)
    ensures Currents(a + b) == Currents(a) + Currents(b)
    decreases |a|
  {
    if a == [] {
      assert a + b == b;
    } else {
      assert (a + b)[1..] == a[1..] + b;
      CurrentsAppend(a[1..], b);
    }
  }

  // ----- the orders -----

  /** The nodes of `t` in pre-order: each node before its children. */
  function PreOrder<L>(t: Tree<L>): seq<Tree<L>>
    decreases t, 1
  {
    [t] + PreOrderFrom(t, 0)
  }

  function PreOrderFrom<L>(t: Tree<L>, i: nat): seq<Tree<L>>
    requires i <= |t.children|
    decreases t, 0, |t.children| - i
  {
    if i == |t.children| then [] else PreOrder(t.children[i]) + PreOrderFrom(t, i + 1)
  }

  /** The nodes of `t` in post-order: each node after its children. */
  function PostOrder<L>(t: Tree<L>): seq<Tree<L>>
    decreases t, 1
  {
    PostOrderFrom(t, 0) + [t]
  }

  function PostOrderFrom<L>(t: Tree<L>, i: nat): seq<Tree<L>>
    requires i <= |t.children|
    decreases t, 0, |t.children| - i
  {
    if i == |t.children| then [] else PostOrder(t.children[i]) + PostOrderFrom(t, i + 1)
  }

  /** The childless nodes of `t`, left to right. */
  function Leaves<L>(t: Tree<L>): seq<Tree<L>>
    decreases t, 1
  {
    if |t.children| == 0 then [t] else LeavesFrom(t, 0)
  }

  function LeavesFrom<L>(t: Tree<L>, i: nat): seq<Tree<L>>
    requires i <= |t.children|
    decreases t, 0, |t.children| - i
  {
    if i == |t.children| then [] else Leaves(t.children[i]) + LeavesFrom(t, i + 1)
  }

  /** Every node of `t` twice: once before its children and once after them. */
  function Twice<L>(t: Tree<L>): seq<Tree<L>>
    decreases t, 1
  {
    [t] + TwiceFrom(t, 0) + [t]
  }

  function TwiceFrom<L>(t: Tree<L>, i: nat): seq<Tree<L>>
    requires i <= |t.children|
    decreases t, 0, |t.children| - i
  {
    if i == |t.children| then [] else Twice(t.children[i]) + TwiceFrom(t, i + 1)
  }

  // ----- what a walk yields, computed on the tree -----

  /** The node a step with status `st` contributes under `mode`: itself when the status matches. */
  function Head<L>(st: Status, n: Tree<L>, mode: Status): seq<Tree<L>> {
    if Matches(st, mode) then [n] else []
  }

  /** The current nodes that the steps of `SubSteps(t, _)` yield under `mode`. */
  function Yields<L>(t: Tree<L>, mode: Status): seq<Tree<L>>
    decreases t, 1
  {
    if |t.children| == 0 then Head(LEAF, t, mode)
    else Head(FIRST, t.children[0], mode) + Yields(t.children[0], mode) + YieldsFrom(t, 1, mode)
  }

  /** The current nodes that the steps of `ChildSteps(t, i, _)` yield under `mode`. */
  function YieldsFrom<L>(t: Tree<L>, i: nat, mode: Status): seq<Tree<L>>
    requires 1 <= i <= |t.children|
    decreases t, 0, |t.children| - i
  {
    if i == |t.children| then Head(LAST, t, mode)
    else Head(NEXT, t.children[i], mode) + Yields(t.children[i], mode) + YieldsFrom(t, i + 1, mode)
  }

  /** Filtering one context and taking its current node. */
  lemma {:induction false} HeadOf<L>(x: Ready<Tree<L>>, mode: Status)
    requires x.current.Some?
    ensures Currents(Loop.Filter([x], Wanted(mode))) == Head(x.status, x.current.value, mode)
  {
    assert [x][1..] == [];
  }

  /** Filtering a step followed by two walks, piece by piece. */
  lemma {:induction false} Pieces<L>(whole: seq<Ready<Tree<L>>>, x: Ready<Tree<L>>, a: seq<Ready<Tree<L>>>, b: seq<Ready<Tree<L>>>,
                                     w: Ready<Tree<L>> -> bool, hx: seq<Tree<L>>, ha: seq<Tree<L>>, hb: seq<Tree<L>>)
    requires whole == [x] + a + b
    requires Currents(Loop.Filter([x], w)) == hx
    requires Currents(Loop.Filter(a, w)) == ha
    requires Currents(Loop.Filter(b, w)) == hb
    ensures Currents(Loop.Filter(whole, w)) == hx + ha + hb
  {
    Loop.FilterAppend([x] + a, b, w);
    Loop.FilterAppend([x], a, w);
    CurrentsAppend(Loop.Filter([x], w) + Loop.Filter(a, w), Loop.Filter(b, w));
    CurrentsAppend(Loop.Filter([x], w), Loop.Filter(a, w));
  }

  /** The walk of a subtree with children, in its three pieces. */
  lemma {:induction false} OpenSubtree<L>(t: Tree<L>, s: seq<Tree<L>>)
    requires |t.children| > 0
    ensures SubSteps(t, s) == [Context(s + [t], FIRST, Some(t.children[0]))] + SubSteps(t.children[0], s + [t]) + ChildSteps(t, 1, s)
  {
  }

  /** The walk from a child that is not the last, in its three pieces. */
  lemma {:induction false} OpenChildren<L>(t: Tree<L>, i: nat, s: seq<Tree<L>>)
    requires 1 <= i < |t.children|
    ensures ChildSteps(t, i, s) == [Context(s + [t], NEXT, Some(t.children[i]))] + SubSteps(t.children[i], s + [t]) + ChildSteps(t, i + 1, s)
  {
  }

  /**
   Whatever the mode, the steps of a subtree's walk yield the nodes `Yields`
   computes, whatever the stack above the subtree.
   */
  lemma {:induction false} SubtreeYields<L>(t: Tree<L>, s: seq<Tree<L>>, mode: Status)
    ensures Currents(Loop.Filter(SubSteps(t, s), Wanted(mode))) == Yields(t, mode)
    decreases t, 1
  {
    if |t.children| == 0 {
      HeadOf(Context(s, LEAF, Some(t)), mode);
    } else {
      var c0 := t.children[0];
      var x := Context(s + [t], FIRST, Some(c0));
      OpenSubtree(t, s);
      HeadOf(x, mode);
      SubtreeYields(c0, s + [t], mode);
      ChildrenYield(t, 1, s, mode);
      Pieces(SubSteps(t, s), x, SubSteps(c0, s + [t]), ChildSteps(t, 1, s), Wanted(mode),
             Head(FIRST, c0, mode), Yields(c0, mode), YieldsFrom(t, 1, mode));
    }
  }

  lemma {:induction false} ChildrenYield<L>(t: Tree<L>, i: nat, s: seq<Tree<L>>, mode: Status)
    requires 1 <= i <= |t.children|
    ensures Currents(Loop.Filter(ChildSteps(t, i, s), Wanted(mode))) == YieldsFrom(t, i, mode)
    decreases t, 0, |t.children| - i
  {
    if i == |t.children| {
      LastYields(t, s, mode);
    } else {
      SubtreeYields(t.children[i], s + [t], mode);
      ChildrenYield(t, i + 1, s, mode);
      NextChildYields(t, i, s, mode);
    }
  }

  /** After the last child, the single step back up to `t`. */
  lemma {:induction false} LastYields<L>(t: Tree<L>, s: seq<Tree<L>>, mode: Status)
    requires 1 <= |t.children|
    ensures Currents(Loop.Filter(ChildSteps(t, |t.children|, s), Wanted(mode))) == YieldsFrom(t, |t.children|, mode)
  {
    HeadOf(Context(s, LAST, Some(t)), mode);
  }

  /** One sibling's step and walk, followed by the rest of the siblings. */
  lemma {:induction false} NextChildYields<L>(t: Tree<L>, i: nat, s: seq<Tree<L>>, mode: Status)
    requires 1 <= i < |t.children|
    requires Currents(Loop.Filter(SubSteps(t.children[i], s + [t]), Wanted(mode))) == Yields(t.children[i], mode)
    requires Currents(Loop.Filter(ChildSteps(t, i + 1, s), Wanted(mode))) == YieldsFrom(t, i + 1, mode)
    ensures Currents(Loop.Filter(ChildSteps(t, i, s), Wanted(mode))) == YieldsFrom(t, i, mode)
  {
    var ci := t.children[i];
    var x := Context(s + [t], NEXT, Some(ci));
    OpenChildren(t, i, s);
    HeadOf(x, mode);
    Pieces(ChildSteps(t, i, s), x, SubSteps(ci, s + [t]), ChildSteps(t, i + 1, s), Wanted(mode),
           Head(NEXT, ci, mode), Yields(ci, mode), YieldsFrom(t, i + 1, mode));
  }

  // ----- ENTER: the pre-order -----

  /** With mode ENTER, a subtree's walk yields its proper descendants in pre-order. */
  lemma {:induction false} EnterYieldsPreOrder<L>(t: Tree<L>)
    ensures Yields(t, ENTER) == PreOrderFrom(t, 0)
    decreases t, 1
  {
    assert !Matches(LEAF, ENTER) && Matches(FIRST, ENTER);
    if |t.children| > 0 {
      var c0 := t.children[0];
      EnterYieldsPreOrder(c0);
      EnterFromYieldsPreOrder(t, 1);
      assert PreOrderFrom(t, 0) == [c0] + PreOrderFrom(c0, 0) + PreOrderFrom(t, 1);
    }
  }

  lemma {:induction false} EnterFromYieldsPreOrder<L>(t: Tree<L>, i: nat)
    requires 1 <= i <= |t.children|
    ensures YieldsFrom(t, i, ENTER) == PreOrderFrom(t, i)
    decreases t, 0, |t.children| - i
  {
    assert !Matches(LAST, ENTER) && Matches(NEXT, ENTER);
    if i < |t.children| {
      var ci := t.children[i];
      EnterYieldsPreOrder(ci);
      EnterFromYieldsPreOrder(t, i + 1);
      assert PreOrderFrom(t, i) == [ci] + PreOrderFrom(ci, 0) + PreOrderFrom(t, i + 1);
    }
  }

  // ----- EXIT: the post-order -----

  /** With mode EXIT, a subtree's walk yields the subtree in post-order, its root last. */
  lemma {:induction false} ExitYieldsPostOrder<L>(t: Tree<L>)
    ensures Yields(t, EXIT) == PostOrder(t)
    decreases t, 1
  {
    assert Matches(LEAF, EXIT) && !Matches(FIRST, EXIT);
    if |t.children| == 0 {
      assert PostOrder(t) == [] + [t];
    } else {
      var c0 := t.children[0];
      ExitYieldsPostOrder(c0);
      ExitFromYieldsPostOrder(t, 1);
      var p0, rest := PostOrder(c0), PostOrderFrom(t, 1);
      assert Yields(t, EXIT) == [] + p0 + (rest + [t]);
      assert [] + p0 == p0;
      assert PostOrder(t) == (p0 + rest) + [t];
      Loop.ConcatAssoc(p0, rest, [t]);
    }
  }

  lemma {:induction false} ExitFromYieldsPostOrder<L>(t: Tree<L>, i: nat)
    requires 1 <= i <= |t.children|
    ensures YieldsFrom(t, i, EXIT) == PostOrderFrom(t, i) + [t]
    decreases t, 0, |t.children| - i
  {
    assert Matches(LAST, EXIT) && !Matches(NEXT, EXIT);
    if i < |t.children| {
      var ci := t.children[i];
      ExitYieldsPostOrder(ci);
      ExitFromYieldsPostOrder(t, i + 1);
      var pi, rest := PostOrder(ci), PostOrderFrom(t, i + 1);
      assert YieldsFrom(t, i, EXIT) == [] + pi + (rest + [t]);
      assert [] + pi == pi;
      assert PostOrderFrom(t, i) == pi + rest;
      Loop.ConcatAssoc(pi, rest, [t]);
    }
  }

  // ----- LEAF: the childless nodes -----

  /** With mode LEAF, a subtree's walk yields its childless nodes, left to right. */
  lemma {:induction false} LeafYieldsLeaves<L>(t: Tree<L>)
    ensures Yields(t, LEAF) == Leaves(t)
    decreases t, 1
  {
    assert Matches(LEAF, LEAF) && !Matches(FIRST, LEAF);
    if |t.children| > 0 {
      var c0 := t.children[0];
      LeafYieldsLeaves(c0);
      LeafFromYieldsLeaves(t, 1);
      assert LeavesFrom(t, 0) == Leaves(c0) + LeavesFrom(t, 1);
    }
  }

  lemma {:induction false} LeafFromYieldsLeaves<L>(t: Tree<L>, i: nat)
    requires 1 <= i <= |t.children|
    ensures YieldsFrom(t, i, LEAF) == LeavesFrom(t, i)
    decreases t, 0, |t.children| - i
  {
    assert !Matches(LAST, LEAF) && !Matches(NEXT, LEAF);
    if i < |t.children| {
      var ci := t.children[i];
      LeafYieldsLeaves(ci);
      LeafFromYieldsLeaves(t, i + 1);
      assert LeavesFrom(t, i) == Leaves(ci) + LeavesFrom(t, i + 1);
    }
  }

  // ----- ENTER|EXIT: every node on the way in and on the way out -----


  /** With mode ENTER|EXIT, a subtree's walk yields each descendant twice and the subtree's root once, last. */
  lemma {:induction false} BothYieldTwice<L>(t: Tree<L>)
    ensures Yields(t, ENTER | EXIT) == TwiceFrom(t, 0) + [t]
    decreases t, 1
  {
    assert Matches(LEAF, ENTER | EXIT) && Matches(FIRST, ENTER | EXIT);
    if |t.children| == 0 {
      assert TwiceFrom(t, 0) + [t] == [t];
    } else {
      var c0 := t.children[0];
      BothYieldTwice(c0);
      BothFromYieldTwice(t, 1);
      var inner, rest := TwiceFrom(c0, 0), TwiceFrom(t, 1);
      assert Yields(t, ENTER | EXIT) == [c0] + (inner + [c0]) + (rest + [t]);
      assert TwiceFrom(t, 0) == ([c0] + inner + [c0]) + rest;
      Loop.ConcatAssoc([c0], inner, [c0]);
      Loop.ConcatAssoc([c0] + inner + [c0], rest, [t]);
    }
  }

  lemma {:induction false} BothFromYieldTwice<L>(t: Tree<L>, i: nat)
    requires 1 <= i <= |t.children|
    ensures YieldsFrom(t, i, ENTER | EXIT) == TwiceFrom(t, i) + [t]
    decreases t, 0, |t.children| - i
  {
    assert Matches(LAST, ENTER | EXIT) && Matches(NEXT, ENTER | EXIT);
    if i < |t.children| {
      var ci := t.children[i];
      BothYieldTwice(ci);
      BothFromYieldTwice(t, i + 1);
      var inner, rest := TwiceFrom(ci, 0), TwiceFrom(t, i + 1);
      assert YieldsFrom(t, i, ENTER | EXIT) == [ci] + (inner + [ci]) + (rest + [t]);
      assert TwiceFrom(t, i) == ([ci] + inner + [ci]) + rest;
      Loop.ConcatAssoc([ci], inner, [ci]);
      Loop.ConcatAssoc([ci] + inner + [ci], rest, [t]);
    }
  }

  // ----- the whole iteration -----

  /** The contexts of a whole traversal yield the root's own entry, then what its subtree yields. */
  lemma {:induction false} TraversalYields<L>(root: Tree<L>, mode: Status)
    ensures Currents(Loop.Filter(Traversal.Traversal(root), Wanted(mode))) == Head(FIRST, root, mode) + Yields(root, mode)
  {
    var x: Ready<Tree<L>> := Context([], FIRST, Some(root));
    assert Traversal.Traversal(root) == [x] + SubSteps(root, []);
    Loop.FilterAppend([x], SubSteps(root, []), Wanted(mode));
    CurrentsAppend(Loop.Filter([x], Wanted(mode)), Loop.Filter(SubSteps(root, []), Wanted(mode)));
    HeadOf(x, mode);
    SubtreeYields(root, [], mode);
  }

  /**
   Over a tree, whose nodes are objects and so truthy, all four iterators
   run alike: the JavaScript ones as the TypeScript ones, and the suspending
   ones as the synchronous ones.
   */
  lemma {:induction false} IteratorsAgreeOnTrees<L(!new)>(root: Tree<L>, v: Variant, mode: Status, fuel: nat)
    ensures Iterate(v, TreeHooks(root), Empty(), mode, fuel) == Iterate(Ts, TreeHooks(root), Empty(), mode, fuel)
    ensures AsyncIterate(v, TreeHooks(root), Empty(), mode, fuel) == Iterate(Ts, TreeHooks(root), Empty(), mode, fuel)
  {
    var h := TreeHooks(root);
    assert forall n :: h.truthy(n);
    TruthyNodesIterateAsInTs(h, Empty(), mode, fuel);
    AsyncIterateMatchesSync(v, h, Empty(), mode, fuel);
  }

  /** Iterating a whole tree from an empty context with mode ENTER yields its nodes in pre-order. */
  lemma {:induction false} IterateEnterIsPreOrder<L(!new)>(root: Tree<L>, v: Variant, fuel: nat)
    requires ValidTree(root) && fuel > |Traversal.Traversal(root)|
    ensures Currents(Iterate(v, TreeHooks(root), Empty(), ENTER, fuel).yielded) == PreOrder(root)
    ensures Currents(AsyncIterate(v, TreeHooks(root), Empty(), ENTER, fuel).yielded) == PreOrder(root)
  {
    assert Currents(Iterate(Ts, TreeHooks(root), Empty(), ENTER, fuel).yielded) == PreOrder(root) by {
      IterateTree(root, ENTER, fuel);
      TraversalYields(root, ENTER);
      EnterYieldsPreOrder(root);
      assert Matches(FIRST, ENTER);
    }
    IteratorsAgreeOnTrees(root, v, ENTER, fuel);
  }

  /** With mode EXIT, the whole tree in post-order. */
  lemma {:induction false} IterateExitIsPostOrder<L(!new)>(root: Tree<L>, v: Variant, fuel: nat)
    requires ValidTree(root) && fuel > |Traversal.Traversal(root)|
    ensures Currents(Iterate(v, TreeHooks(root), Empty(), EXIT, fuel).yielded) == PostOrder(root)
    ensures Currents(AsyncIterate(v, TreeHooks(root), Empty(), EXIT, fuel).yielded) == PostOrder(root)
  {
    assert Currents(Iterate(Ts, TreeHooks(root), Empty(), EXIT, fuel).yielded) == PostOrder(root) by {
      IterateTree(root, EXIT, fuel);
      TraversalYields(root, EXIT);
      ExitYieldsPostOrder(root);
      assert !Matches(FIRST, EXIT);
      assert [] + PostOrder(root) == PostOrder(root);
    }
    IteratorsAgreeOnTrees(root, v, EXIT, fuel);
  }

  /** With mode LEAF (the iterator's default), the childless nodes left to right. */
  lemma {:induction false} IterateLeafIsLeaves<L(!new)>(root: Tree<L>, v: Variant, fuel: nat)
    requires ValidTree(root) && fuel > |Traversal.Traversal(root)|
    ensures Currents(Iterate(v, TreeHooks(root), Empty(), LEAF, fuel).yielded) == Leaves(root)
    ensures Currents(AsyncIterate(v, TreeHooks(root), Empty(), LEAF, fuel).yielded) == Leaves(root)
  {
    assert Currents(Iterate(Ts, TreeHooks(root), Empty(), LEAF, fuel).yielded) == Leaves(root) by {
      IterateTree(root, LEAF, fuel);
      TraversalYields(root, LEAF);
      LeafYieldsLeaves(root);
      assert !Matches(FIRST, LEAF);
      assert [] + Leaves(root) == Leaves(root);
    }
    IteratorsAgreeOnTrees(root, v, LEAF, fuel);
  }

  /** With mode ENTER|EXIT, every node on entry and again on exit. */
  lemma {:induction false} IterateBothIsTwice<L(!new)>(root: Tree<L>, v: Variant, fuel: nat)
    requires ValidTree(root) && fuel > |Traversal.Traversal(root)|
    ensures Currents(Iterate(v, TreeHooks(root), Empty(), ENTER | EXIT, fuel).yielded) == Twice(root)
    ensures Currents(AsyncIterate(v, TreeHooks(root), Empty(), ENTER | EXIT, fuel).yielded) == Twice(root)
  {
    assert Currents(Iterate(Ts, TreeHooks(root), Empty(), ENTER | EXIT, fuel).yielded) == Twice(root) by {
      IterateTree(root, ENTER | EXIT, fuel);
      TraversalYields(root, ENTER | EXIT);
      BothYieldTwice(root);
      assert Matches(FIRST, ENTER | EXIT);
    }
    IteratorsAgreeOnTrees(root, v, ENTER | EXIT, fuel);
  }
}

=== FILE: sample.dfy ===
/**
 The tree of the repository's iterator tests, a(b1(c1, c2, c3), b2,
 b3(d(e(f)))), and the nodes the iterator yields on it in each mode: the
 lists those tests expect. Each constant is named after its node's label.
 */
module Sample {
  import opened Mode
  import opened TreeWalkerContext
  import opened Iterator
  import opened Traversal
  import opened Orders

  const C1: Tree<string> := Node("c1", [])
  const C2: Tree<string> := Node("c2", [])
  const C3: Tree<string> := Node("c3", [])
  const F: Tree<string> := Node("f", [])
  const E: Tree<string> := Node("e", [F])
  const D: Tree<string> := Node("d", [E])
  const B1: Tree<string> := Node("b1", [C1, C2, C3])
  const B2: Tree<string> := Node("b2", [])
  const B3: Tree<string> := Node("b3", [D])
  const A: Tree<string> := Node("a", [B1, B2, B3])

  // ----- the test tree is a valid tree -----

  lemma {:induction false} ValidOnly<L>(t: Tree<L>)
    requires |t.children| == 1 && ValidTree(t.children[0])
    ensures ValidTree(t)
  {
  }

  lemma {:induction false} ValidThree<L>(t: Tree<L>)
    requires |t.children| == 3
    requires t.children[0].name != t.children[1].name && t.children[0].name != t.children[2].name
    requires t.children[1].name != t.children[2].name
    requires ValidTree(t.children[0]) && ValidTree(t.children[1]) && ValidTree(t.children[2])
    ensures ValidTree(t)
  {
  }

  lemma TestTreeIsValid()
    ensures ValidTree(A)
  {
    assert ValidTree(C1) && ValidTree(C2) && ValidTree(C3) && ValidTree(F) && ValidTree(B2);
    ValidOnly(E);
    ValidOnly(D);
    ValidOnly(B3);
    ValidThree(B1);
    ValidThree(A);
  }

  // ----- pre-order -----

  lemma {:induction false} PreLeaf<L>(t: Tree<L>)
    requires t.children == []
    ensures PreOrder(t) == [t]
  {
  }

  lemma {:induction false} PreOnly<L>(t: Tree<L>)
    requires |t.children| == 1
    ensures PreOrder(t) == [t] + PreOrder(t.children[0])
  {
    assert PreOrderFrom(t, 1) == [];
  }

  lemma {:induction false} PreThree<L>(t: Tree<L>)
    requires |t.children| == 3
    ensures PreOrder(t) == [t] + PreOrder(t.children[0]) + PreOrder(t.children[1]) + PreOrder(t.children[2])
  {
    var p0, p1, p2 := PreOrder(t.children[0]), PreOrder(t.children[1]), PreOrder(t.children[2]);
    assert PreOrderFrom(t, 3) == [];
    assert PreOrderFrom(t, 2) == p2;
    assert PreOrderFrom(t, 1) == p1 + p2;
    assert PreOrderFrom(t, 0) == p0 + (p1 + p2);
  }

  lemma PreOrderOfTestTree()
    ensures PreOrder(A) == [A, B1, C1, C2, C3, B2, B3, D, E, F]
  {
    PreLeaf(C1); PreLeaf(C2); PreLeaf(C3); PreLeaf(F); PreLeaf(B2);
    PreOnly(E); PreOnly(D); PreOnly(B3);
    PreThree(B1);
    PreThree(A);
  }

  // ----- post-order -----

  lemma {:induction false} PostLeaf<L>(t: Tree<L>)
    requires t.children == []
    ensures PostOrder(t) == [t]
  {
    assert PostOrderFrom(t, 0) == [];
  }

  lemma {:induction false} PostOnly<L>(t: Tree<L>)
    requires |t.children| == 1
    ensures PostOrder(t) == PostOrder(t.children[0]) + [t]
  {
    assert PostOrderFrom(t, 1) == [];
  }

  lemma {:induction false} PostThree<L>(t: Tree<L>)
    requires |t.children| == 3
    ensures PostOrder(t) == PostOrder(t.children[0]) + PostOrder(t.children[1]) + PostOrder(t.children[2]) + [t]
  {
    var p0, p1, p2 := PostOrder(t.children[0]), PostOrder(t.children[1]), PostOrder(t.children[2]);
    assert PostOrderFrom(t, 3) == [];
    assert PostOrderFrom(t, 2) == p2;
    assert PostOrderFrom(t, 1) == p1 + p2;
    assert PostOrderFrom(t, 0) == p0 + (p1 + p2);
  }

  lemma PostOrderOfTestTree()
    ensures PostOrder(A) == [C1, C2, C3, B1, B2, F, E, D, B3, A]
  {
    PostLeaf(C1); PostLeaf(C2); PostLeaf(C3); PostLeaf(F); PostLeaf(B2);
    PostOnly(E); PostOnly(D); PostOnly(B3);
    PostThree(B1);
    PostThree(A);
  }

  // ----- leaves -----

  lemma {:induction false} LeavesOnly<L>(t: Tree<L>)
    requires |t.children| == 1
    ensures Leaves(t) == Leaves(t.children[0])
  {
    assert LeavesFrom(t, 1) == [];
  }

  lemma {:induction false} LeavesThree<L>(t: Tree<L>)
    requires |t.children| == 3
    ensures Leaves(t) == Leaves(t.children[0]) + Leaves(t.children[1]) + Leaves(t.children[2])
  {
    var l0, l1, l2 := Leaves(t.children[0]), Leaves(t.children[1]), Leaves(t.children[2]);
    assert LeavesFrom(t, 3) == [];
    assert LeavesFrom(t, 2) == l2;
    assert LeavesFrom(t, 1) == l1 + l2;
    assert LeavesFrom(t, 0) == l0 + (l1 + l2);
  }

  lemma LeavesOfTestTree()
    ensures Leaves(A) == [C1, C2, C3, B2, F]
  {
    assert Leaves(C1) == [C1] && Leaves(C2) == [C2] && Leaves(C3) == [C3];
    assert Leaves(F) == [F] && Leaves(B2) == [B2];
    LeavesOnly(E); LeavesOnly(D); LeavesOnly(B3);
    LeavesThree(B1);
    LeavesThree(A);
  }

  // ----- every node twice -----

  lemma {:induction false} TwiceLeaf<L>(t: Tree<L>)
    requires t.children == []
    ensures Twice(t) == [t, t]
  {
    assert TwiceFrom(t, 0) == [];
  }

  lemma {:induction false} TwiceOnly<L>(t: Tree<L>)
    requires |t.children| == 1
    ensures Twice(t) == [t] + Twice(t.children[0]) + [t]
  {
    assert TwiceFrom(t, 1) == [];
  }

  lemma {:induction false} TwiceThree<L>(t: Tree<L>)
    requires |t.children| == 3
    ensures Twice(t) == [t] + Twice(t.children[0]) + Twice(t.children[1]) + Twice(t.children[2]) + [t]
  {
    var w0, w1, w2 := Twice(t.children[0]), Twice(t.children[1]), Twice(t.children[2]);
    assert TwiceFrom(t, 3) == [];
    assert TwiceFrom(t, 2) == w2;
    assert TwiceFrom(t, 1) == w1 + w2;
    assert TwiceFrom(t, 0) == w0 + (w1 + w2);
  }

  lemma TwiceOfTestTree()
    ensures Twice(A) == [A, B1, C1, C1, C2, C2, C3, C3, B1, B2, B2, B3, D, E, F, F, E, D, B3, A]
  {
    TwiceLeaf(C1); TwiceLeaf(C2); TwiceLeaf(C3); TwiceLeaf(F); TwiceLeaf(B2);
    TwiceOnly(E); TwiceOnly(D); TwiceOnly(B3);
    TwiceThree(B1);
    TwiceThree(A);
  }

  // ----- what the iterator yields -----

  /** Mode ENTER: a b1 c1 c2 c3 b2 b3 d e f. */
  lemma {:induction false} EnterControl(fuel: nat)
    requires fuel > |Traversal.Traversal(A)|
    ensures Currents(AsyncIterate(Ts, TreeHooks(A), Empty(), ENTER, fuel).yielded)
         == [A, B1, C1, C2, C3, B2, B3, D, E, F]
  {
    TestTreeIsValid();
    IterateEnterIsPreOrder(A, Ts, fuel);
    PreOrderOfTestTree();
  }

  /** Mode EXIT: c1 c2 c3 b1 b2 f e d b3 a. */
  lemma {:induction false} ExitControl(fuel: nat)
    requires fuel > |Traversal.Traversal(A)|
    ensures Currents(AsyncIterate(Ts, TreeHooks(A), Empty(), EXIT, fuel).yielded)
         == [C1, C2, C3, B1, B2, F, E, D, B3, A]
  {
    TestTreeIsValid();
    IterateExitIsPostOrder(A, Ts, fuel);
    PostOrderOfTestTree();
  }

  /** Mode LEAF: c1 c2 c3 b2 f. */
  lemma {:induction false} LeafControl(fuel: nat)
    requires fuel > |Traversal.Traversal(A)|
    ensures Currents(AsyncIterate(Ts, TreeHooks(A), Empty(), LEAF, fuel).yielded)
         == [C1, C2, C3, B2, F]
  {
    TestTreeIsValid();
    IterateLeafIsLeaves(A, Ts, fuel);
    LeavesOfTestTree();
  }

  /** Mode ENTER|EXIT: every name on the way in and again on the way out. */
  lemma {:induction false} EnterExitControl(fuel: nat)
    requires fuel > |Traversal.Traversal(A)|
    ensures Currents(AsyncIterate(Ts, TreeHooks(A), Empty(), ENTER | EXIT, fuel).yielded)
         == [A, B1, C1, C1, C2, C2, C3, C3, B1, B2, B2, B3, D, E, F, F, E, D, B3, A]
  {
    TestTreeIsValid();
    IterateBothIsTwice(A, Ts, fuel);
    TwiceOfTestTree();
  }
}

=== FILE: traversal.dfy ===
/**
 The iterator over a concrete tree, with the lookups the repository's tests
 use (`test/newAsyncTreeIterator.test.ts`): `first` gives the root when no
 node is current and the first child otherwise; `next` finds `current`
 among the children of the stack top, by name, and gives the sibling after
 it. Over such a tree the loop is a depth-first traversal: it passes
 through every node twice, once on entry and once on exit, calls `before`
 and `after` in properly nested pairs, and yields the pre-order, the
 post-order or the leaves depending on the mode.
 */
module Traversal {
  import opened Options
  import opened Mode
  import opened TreeWalkerContext
  import opened Walker
  import opened Iterator
  import Loop

  /** A node with a name and its children, in order. */
  datatype Tree<L> = Node(name: L, children: seq<Tree<L>>)

  /** Siblings have distinct names, so `next` can find a node among them by its name. */
  predicate DistinctNames<L(==)>(ch: seq<Tree<L>>) {
    forall i, j | 0 <= i < j < |ch| :: ch[i].name != ch[j].name
  }

  predicate ValidTree<L(==)>(t: Tree<L>) {
    DistinctNames(t.children) && forall k | 0 <= k < |t.children| :: ValidTree(t.children[k])
  }

  /** The index of the first child named like `current`, or the number of children when there is none. */
  function IndexOf<L(==)>(ch: seq<Tree<L>>, current: Option<Tree<L>>): (idx: nat)
    ensures idx <= |ch|
    decreases |ch|
  {
    if ch == [] then 0
    else if current.Some? && ch[0].name == current.value.name then 0
    else 1 + IndexOf(ch[1..], current)
  }

  /** The search stops at the first child with the name of `current`, and runs off the end when there is none. */
  lemma {:induction false} IndexOfFindsFirst<L>(ch: seq<Tree<L>>, current: Option<Tree<L>>)
    ensures var idx := IndexOf(ch, current);
      && (forall k | 0 <= k < idx :: !(current.Some? && ch[k].name == current.value.name))
      && (idx < |ch| ==> current.Some? && ch[idx].name == current.value.name)
    decreases |ch|
  {
    if ch != [] && !(current.Some? && ch[0].name == current.value.name) {
      IndexOfFindsFirst(ch[1..], current);
    }
  }

  /** The test's `first`: the root when nothing is current, otherwise the first child of `current`. */
  function First<L(==)>(root: Tree<L>, c: Context<Tree<L>>): (found: Option<Tree<L>>)
    ensures c.current.None? ==> found == Some(root)
    ensures c.current.Some? ==> (found.Some? <==> |c.current.value.children| > 0)
    ensures c.current.Some? && found.Some? ==> found.value == c.current.value.children[0]
  {
    match c.current
    case None => Some(root)
    case Some(n) => if |n.children| > 0 then Some(n.children[0]) else None
  }

  /**
   The test's `next`: the sibling after `current` among the children of the
   stack top, if any. With distinct sibling names, the sibling after the
   `k`th child is the `k + 1`st, and there is none after the last.
   */
  function Next<L(==)>(c: Context<Tree<L>>): (found: Option<Tree<L>>)
    ensures |c.stack| == 0 ==> found == None
    ensures |c.stack| > 0 ==> var ch := c.stack[|c.stack| - 1].children;
      DistinctNames(ch) ==>
        forall k | 0 <= k < |ch| && c.current == Some(ch[k]) :: found == (if k + 1 < |ch| then Some(ch[k + 1]) else None)
  {
    if |c.stack| == 0 then None
    else
      var ch := c.stack[|c.stack| - 1].children;
      var idx := IndexOf(ch, c.current);
      EachFoundAtItsIndex(ch);
      if idx + 1 < |ch| then Some(ch[idx + 1]) else None
  }

  /** With distinct names, every child is found at its own index. */
  lemma {:induction false} EachFoundAtItsIndex<L>(ch: seq<Tree<L>>)
    ensures DistinctNames(ch) ==> forall k | 0 <= k < |ch| :: IndexOf(ch, Some(ch[k])) == k
  {
    if DistinctNames(ch) {
      forall k | 0 <= k < |ch| ensures IndexOf(ch, Some(ch[k])) == k {
        IndexOfDistinct(ch, k);
      }
    }
  }

  /** The lookups of the test, over the tree under `root`. */
  function TreeHooks<L(==)>(root: Tree<L>): (h: Hooks<Tree<L>>)
    ensures h.truthy == AllTruthy()
  {
    Hooks(c => First(root, c), c => Next(c), AllTruthy())
  }

  function Turn<L(==)>(root: Tree<L>): Ready<Tree<L>> -> Loop.Turn<Ready<Tree<L>>, Event<Tree<L>>> {
    TurnOf(Ts, TreeHooks(root))
  }

  /** With distinct names, `next` finds the `k`th child at index `k`. */
  lemma {:induction false} IndexOfDistinct<L>(ch: seq<Tree<L>>, k: nat)
    requires DistinctNames(ch) && k < |ch|
    ensures IndexOf(ch, Some(ch[k])) == k
  {
    IndexOfFindsFirst(ch, Some(ch[k]));
  }

  /** The exit status a subtree ends with: LEAF for a childless node, LAST otherwise. */
  function ExitStatus<L>(t: Tree<L>): Status {
    if |t.children| == 0 then LEAF else LAST
  }

  /** A step from an entered node: a LEAF when it has no children, otherwise its first child is entered. */
  lemma {:induction false} EnterStep<L>(root: Tree<L>, s: seq<Tree<L>>, st: Status, t: Tree<L>)
    requires st == FIRST || st == NEXT
    ensures var r := Turn(root)(Context(s, st, Some(t)));
      && r.alive
      && (t.children == [] ==> r.state == Context(s, LEAF, Some(t)) && r.emitted == [])
      && (t.children != [] ==>
            r.state == Context(s + [t], FIRST, Some(t.children[0])) && r.emitted == [Before(t.children[0], |s| + 1)])
  {
    var c: Ready<Tree<L>> := Context(s, st, Some(t));
    var h := TreeHooks(root);
    assert Prepare(c) == Context(s + [t], st, Some(t));
    var found := First(root, Prepare(c));
    assert Load(h, c)(Prepare(c)) == found;
    StepEffect(c, found, AllTruthy());
    assert Turn(root)(c).state == Walker.Step(c, found, AllTruthy()).ctx;
    assert Turn(root)(c).emitted == Walker.Step(c, found, AllTruthy()).events;
    if found.None? {
      assert AllTruthy<Tree<L>>()(t);
    }
  }

  /**
   A step after the exit of the `i`th child (counting from 1) of `t`: the
   child's `after`, then the next sibling is entered, or, after the last
   one, `t` is popped with status LAST.
   */
  lemma {:induction false} NextStep<L>(root: Tree<L>, s: seq<Tree<L>>, t: Tree<L>, i: nat, st: Status)
    requires DistinctNames(t.children) && 1 <= i <= |t.children|
    requires st == LEAF || st == LAST
    ensures var r := Turn(root)(Context(s + [t], st, Some(t.children[i - 1])));
      && r.alive
      && (i < |t.children| ==>
            && r.state == Context(s + [t], NEXT, Some(t.children[i]))
            && r.emitted == [After(Some(t.children[i - 1]), |s| + 1), Before(t.children[i], |s| + 1)])
      && (i == |t.children| ==>
            r.state == Context(s, LAST, Some(t)) && r.emitted == [After(Some(t.children[i - 1]), |s| + 1)])
  {
    var c: Ready<Tree<L>> := Context(s + [t], st, Some(t.children[i - 1]));
    var h := TreeHooks(root);
    assert Prepare(c) == c;
    assert (s + [t])[|s + [t]| - 1] == t;
    var found := Next(c);
    assert found == if i < |t.children| then Some(t.children[i]) else None;
    assert Load(h, c)(Prepare(c)) == found;
    StepEffect(c, found, AllTruthy());
    assert Turn(root)(c).state == Walker.Step(c, found, AllTruthy()).ctx;
    assert Turn(root)(c).emitted == Walker.Step(c, found, AllTruthy()).events;
    if found.None? {
      assert AllTruthy<Tree<L>>()(t);
    }
  }

  /** The first step from the empty context enters the root. */
  lemma {:induction false} RootStep<L>(root: Tree<L>)
    ensures var r := Turn(root)(Empty());
      r.alive && r.state == Context([], FIRST, Some(root)) && r.emitted == [Before(root, 0)]
  {
    var c: Ready<Tree<L>> := Empty();
    assert Prepare(c) == c;
    assert Load(TreeHooks(root), c)(Prepare(c)) == Some(root);
    StepEffect(c, Some(root), AllTruthy());
    assert Turn(root)(c).state == Walker.Step(c, Some(root), AllTruthy()).ctx;
    assert Turn(root)(c).emitted == Walker.Step(c, Some(root), AllTruthy()).events;
  }

  /** The step after the root's exit: the root's `after`, then the walker returns false. */
  lemma {:induction false} FinalStep<L>(root: Tree<L>, st: Status)
    requires st == LEAF || st == LAST
    ensures var r := Turn(root)(Context([], st, Some(root)));
      !r.alive && r.state == Empty() && r.emitted == [After(Some(root), 0)]
  {
    var c: Ready<Tree<L>> := Context([], st, Some(root));
    assert Prepare(c) == c;
    assert Load(TreeHooks(root), c)(Prepare(c)) == None;
    StepEffect(c, None, AllTruthy());
    assert Turn(root)(c).state == Walker.Step(c, None, AllTruthy()).ctx;
    assert Turn(root)(c).emitted == Walker.Step(c, None, AllTruthy()).events;
    assert Turn(root)(c).alive == Walker.Step(c, None, AllTruthy()).alive;
  }

  /**
   The contexts the loop passes through while it walks the subtree of `t`,
   entered with ancestors `s`, up to and including `t`'s exit: for a
   childless node its LEAF, otherwise each child entered (FIRST, then NEXT)
   and walked, and finally `t` popped with LAST.
   */
  function SubSteps<L(==)>(t: Tree<L>, s: seq<Tree<L>>): seq<Ready<Tree<L>>>
    decreases t, 1
  {
    if t.children == [] then [Context(s, LEAF, Some(t))]
    else [Context(s + [t], FIRST, Some(t.children[0]))] + SubSteps(t.children[0], s + [t]) + ChildSteps(t, 1, s)
  }

  /** The contexts from the exit of the `i`th child of `t` (counting from 1) up to `t`'s exit. */
  function ChildSteps<L(==)>(t: Tree<L>, i: nat, s: seq<Tree<L>>): seq<Ready<Tree<L>>>
    requires 1 <= i <= |t.children|
    decreases t, 0, |t.children| - i
  {
    if i == |t.children| then [Context(s, LAST, Some(t))]
    else [Context(s + [t], NEXT, Some(t.children[i]))] + SubSteps(t.children[i], s + [t]) + ChildSteps(t, i + 1, s)
  }

  /** The `before` and `after` calls of a depth-first visit of `t` at depth `d`: properly nested pairs. */
  function Visit<L>(t: Tree<L>, d: nat): seq<Event<Tree<L>>>
    decreases t, 1
  {
    [Before(t, d)] + ChildVisits(t, 0, d) + [After(Some(t), d)]
  }

  /** The visits of the children of `t` from the `i`th on, one level below `d`. */
  function ChildVisits<L>(t: Tree<L>, i: nat, d: nat): seq<Event<Tree<L>>>
    requires i <= |t.children|
    decreases t, 0, |t.children| - i
  {
    if i == |t.children| then [] else Visit(t.children[i], d + 1) + ChildVisits(t, i + 1, d)
  }

  /** A loop that yields nothing; what the loop passes through does not depend on what it yields. */
  function Silent<L>(): Ready<Tree<L>> -> bool {
    (c: Ready<Tree<L>>) => false
  }

  /**
   A marker for the contexts at which a proof consults the walker step:
   the connection between a turn function and the tree's step is only
   instantiated there, so the step is not unfolded everywhere else.
   */
  predicate Consulted<L>(c: Ready<Tree<L>>) {
    true
  }

  /** `turn` is the loop's turn over the tree under `root`, wherever it is consulted. */
  ghost predicate IsTreeTurn<L(!new)>(root: Tree<L>, turn: Ready<Tree<L>> -> Loop.Turn<Ready<Tree<L>>, Event<Tree<L>>>) {
    forall c: Ready<Tree<L>> {:trigger Consulted(c)} :: Consulted(c) && turn(c) == Turn(root)(c)
  }

  /** `EnterStep`, for any turn that is the tree's. */
  lemma {:induction false} EnterTurn<L(!new)>(root: Tree<L>, turn: Ready<Tree<L>> -> Loop.Turn<Ready<Tree<L>>, Event<Tree<L>>>, s: seq<Tree<L>>, st: Status, t: Tree<L>)
    requires IsTreeTurn(root, turn) && (st == FIRST || st == NEXT)
    ensures var r := turn(Context(s, st, Some(t)));
      && r.alive
      && (t.children == [] ==> r.state == Context(s, LEAF, Some(t)) && r.emitted == [])
      && (t.children != [] ==>
            r.state == Context(s + [t], FIRST, Some(t.children[0])) && r.emitted == [Before(t.children[0], |s| + 1)])
  {
    var c: Ready<Tree<L>> := Context(s, st, Some(t));
    assert Consulted(c);
    EnterStep(root, s, st, t);
  }

  /** `NextStep`, for any turn that is the tree's. */
  lemma {:induction false} NextTurn<L(!new)>(root: Tree<L>, turn: Ready<Tree<L>> -> Loop.Turn<Ready<Tree<L>>, Event<Tree<L>>>, s: seq<Tree<L>>, t: Tree<L>, i: nat)
    requires IsTreeTurn(root, turn) && DistinctNames(t.children) && 1 <= i <= |t.children|
    ensures var r := turn(Exited(s + [t], t.children[i - 1]));
      && r.alive
      && (i < |t.children| ==>
            && r.state == Context(s + [t], NEXT, Some(t.children[i]))
            && r.emitted == [After(Some(t.children[i - 1]), |s| + 1), Before(t.children[i], |s| + 1)])
      && (i == |t.children| ==>
            r.state == Context(s, LAST, Some(t)) && r.emitted == [After(Some(t.children[i - 1]), |s| + 1)])
  {
    var x: Ready<Tree<L>> := Exited(s + [t], t.children[i - 1]);
    assert Consulted(x);
    NextStep(root, s, t, i, ExitStatus(t.children[i - 1]));
  }

  /**
   `n` turns of the loop from `from` pass through `steps`, call `events`,
   and stop, unfinished, at `last`.
   */
  predicate Walks<L(==)>(turn: Ready<Tree<L>> -> Loop.Turn<Ready<Tree<L>>, Event<Tree<L>>>, from: Ready<Tree<L>>, n: nat,
                         steps: seq<Ready<Tree<L>>>, events: seq<Event<Tree<L>>>, last: Ready<Tree<L>>)
  {
    Loop.Reaches(turn, Silent(), from, n, steps, events, last)
  }

  /** The context in which the walk of `t`'s subtree ends: `t` current again, with its exit status. */
  function Exited<L>(s: seq<Tree<L>>, t: Tree<L>): Ready<Tree<L>> {
    Context(s, ExitStatus(t), Some(t))
  }

  /** The walk of the subtree of `t`, entered with status `st` below the ancestors `s`. */
  predicate WalksSubtree<L(==)>(turn: Ready<Tree<L>> -> Loop.Turn<Ready<Tree<L>>, Event<Tree<L>>>, s: seq<Tree<L>>, st: Status, t: Tree<L>) {
    Walks(turn, Context(s, st, Some(t)), |SubSteps(t, s)|, SubSteps(t, s), ChildVisits(t, 0, |s|), Exited(s, t))
  }

  /** The walk of the children of `t` after the `i`th (counting from 1), up to `t`'s own exit. */
  predicate WalksChildren<L(==)>(turn: Ready<Tree<L>> -> Loop.Turn<Ready<Tree<L>>, Event<Tree<L>>>, s: seq<Tree<L>>, t: Tree<L>, i: nat)
    requires 1 <= i <= |t.children|
  {
    Walks(turn, Exited(s + [t], t.children[i - 1]), |ChildSteps(t, i, s)|, ChildSteps(t, i, s),
          [After(Some(t.children[i - 1]), |s| + 1)] + ChildVisits(t, i, |s|), Context(s, LAST, Some(t)))
  }

  /** The walk of a childless node: one step, to its LEAF. */
  lemma {:induction false} EnterLeaf<L(!new)>(root: Tree<L>, turn: Ready<Tree<L>> -> Loop.Turn<Ready<Tree<L>>, Event<Tree<L>>>, t: Tree<L>, s: seq<Tree<L>>, st: Status)
    requires IsTreeTurn(root, turn) && t.children == [] && (st == FIRST || st == NEXT)
    ensures WalksSubtree(turn, s, st, t)
  {
    EnterTurn(root, turn, s, st, t);
    Loop.LiveTurnLeads(turn, Silent(), Context(s, st, Some(t)), 0);
  }

  /** The walk of a node with children: enter the first, walk it, then walk the others. */
  lemma {:induction false} EnterInner<L(!new)>(root: Tree<L>, turn: Ready<Tree<L>> -> Loop.Turn<Ready<Tree<L>>, Event<Tree<L>>>, t: Tree<L>, s: seq<Tree<L>>, st: Status)
    requires IsTreeTurn(root, turn) && t.children != [] && (st == FIRST || st == NEXT)
    requires WalksSubtree(turn, s + [t], FIRST, t.children[0])
    requires WalksChildren(turn, s, t, 1)
    ensures WalksSubtree(turn, s, st, t)
  {
    var p := s + [t];
    var c0 := t.children[0];
    var d := |s| + 1;
    EnterTurn(root, turn, s, st, t);
    Loop.Chain(turn, Silent(), Context(s, st, Some(t)), |SubSteps(c0, p)|, |ChildSteps(t, 1, s)|,
               SubSteps(c0, p), ChildVisits(c0, 0, d), Exited(p, c0),
               ChildSteps(t, 1, s), [After(Some(c0), d)] + ChildVisits(t, 1, |s|), Context(s, LAST, Some(t)));
    assert SubSteps(t, s) == [Context(p, FIRST, Some(c0))] + SubSteps(c0, p) + ChildSteps(t, 1, s);
    assert ChildVisits(t, 0, |s|) == Visit(c0, d) + ChildVisits(t, 1, |s|);
    Loop.ConcatAssoc([] + [Before(c0, d)] + ChildVisits(c0, 0, d), [After(Some(c0), d)], ChildVisits(t, 1, |s|));
    Loop.ConcatAssoc([], [Before(c0, d)], ChildVisits(c0, 0, d));
    Loop.ConcatAssoc([], [Before(c0, d)] + ChildVisits(c0, 0, d), [After(Some(c0), d)]);
    Loop.ConcatAssoc([], [Before(c0, d)] + ChildVisits(c0, 0, d) + [After(Some(c0), d)], ChildVisits(t, 1, |s|));
    assert [Before(c0, d)] == [] + [Before(c0, d)];
  }

  /** After the last child: one step, popping the parent with LAST. */
  lemma {:induction false} LastChild<L(!new)>(root: Tree<L>, turn: Ready<Tree<L>> -> Loop.Turn<Ready<Tree<L>>, Event<Tree<L>>>, t: Tree<L>, s: seq<Tree<L>>)
    requires IsTreeTurn(root, turn) && DistinctNames(t.children) && t.children != []
    ensures WalksChildren(turn, s, t, |t.children|)
  {
    NextTurn(root, turn, s, t, |t.children|);
    Loop.LiveTurnLeads(turn, Silent(), Exited(s + [t], t.children[|t.children| - 1]), 0);
  }

  /** After the `i`th child: enter the next one, walk it, then walk the rest. */
  lemma {:induction false} NextChild<L(!new)>(root: Tree<L>, turn: Ready<Tree<L>> -> Loop.Turn<Ready<Tree<L>>, Event<Tree<L>>>, t: Tree<L>, i: nat, s: seq<Tree<L>>)
    requires IsTreeTurn(root, turn) && DistinctNames(t.children) && 1 <= i < |t.children|
    requires WalksSubtree(turn, s + [t], NEXT, t.children[i])
    requires WalksChildren(turn, s, t, i + 1)
    ensures WalksChildren(turn, s, t, i)
  {
    var p := s + [t];
    var c := t.children[i - 1];
    var ci := t.children[i];
    var d := |s| + 1;
    NextTurn(root, turn, s, t, i);
    Loop.Chain(turn, Silent(), Exited(p, c), |SubSteps(ci, p)|, |ChildSteps(t, i + 1, s)|,
               SubSteps(ci, p), ChildVisits(ci, 0, d), Exited(p, ci),
               ChildSteps(t, i + 1, s), [After(Some(ci), d)] + ChildVisits(t, i + 1, |s|), Context(s, LAST, Some(t)));
    assert ChildSteps(t, i, s) == [Context(p, NEXT, Some(ci))] + SubSteps(ci, p) + ChildSteps(t, i + 1, s);
    assert ChildVisits(t, i, |s|) == Visit(ci, d) + ChildVisits(t, i + 1, |s|);
    Loop.ConcatAssoc([After(Some(c), d)] + [Before(ci, d)] + ChildVisits(ci, 0, d), [After(Some(ci), d)], ChildVisits(t, i + 1, |s|));
    Loop.ConcatAssoc([After(Some(c), d)], [Before(ci, d)], ChildVisits(ci, 0, d));
    Loop.ConcatAssoc([After(Some(c), d)], [Before(ci, d)] + ChildVisits(ci, 0, d), [After(Some(ci), d)]);
    Loop.ConcatAssoc([After(Some(c), d)], [Before(ci, d)] + ChildVisits(ci, 0, d) + [After(Some(ci), d)], ChildVisits(t, i + 1, |s|));
    assert [After(Some(c), d), Before(ci, d)] == [After(Some(c), d)] + [Before(ci, d)];
  }

  /**
   From an entered node, the loop walks its subtree: the contexts are
   `SubSteps`, the callbacks are the visits of its children, and it stops
   at the node's own exit, with the node current and the stack as it was.
   */
  lemma {:induction false} EnterSubtree<L(!new)>(root: Tree<L>, turn: Ready<Tree<L>> -> Loop.Turn<Ready<Tree<L>>, Event<Tree<L>>>,
                                           t: Tree<L>, s: seq<Tree<L>>, st: Status)
    requires IsTreeTurn(root, turn) && ValidTree(t) && (st == FIRST || st == NEXT)
    ensures WalksSubtree(turn, s, st, t)
    decreases t, 1
  {
    if t.children == [] {
      EnterLeaf(root, turn, t, s, st);
    } else {
      EnterSubtree(root, turn, t.children[0], s + [t], FIRST);
      Children(root, turn, t, 1, s);
      EnterInner(root, turn, t, s, st);
    }
  }

  /**
   From the exit of the `i`th child of `t`, the loop walks the remaining
   children and stops at `t`'s exit with status LAST.
   */
  lemma {:induction false} Children<L(!new)>(root: Tree<L>, turn: Ready<Tree<L>> -> Loop.Turn<Ready<Tree<L>>, Event<Tree<L>>>,
                                       t: Tree<L>, i: nat, s: seq<Tree<L>>)
    requires IsTreeTurn(root, turn) && ValidTree(t) && 1 <= i <= |t.children|
    ensures WalksChildren(turn, s, t, i)
    decreases t, 0, |t.children| - i
  {
    if i == |t.children| {
      LastChild(root, turn, t, s);
    } else {
      EnterSubtree(root, turn, t.children[i], s + [t], NEXT);
      Children(root, turn, t, i + 1, s);
      NextChild(root, turn, t, i, s);
    }
  }

  /** Every context the loop passes through over the tree under `root`, from the empty context. */
  function Traversal<L(==)>(root: Tree<L>): seq<Ready<Tree<L>>> {
    [Context([], FIRST, Some(root))] + SubSteps(root, [])
  }

  /** The loop's turn is the tree's turn, at every context. */
  lemma {:induction false} TurnIsTreeTurn<L(!new)>(root: Tree<L>)
    ensures IsTreeTurn(root, Turn(root))
  {
  }

  /** `RootStep` and `FinalStep`, for any turn that is the tree's. */
  lemma {:induction false} EndTurns<L(!new)>(root: Tree<L>, turn: Ready<Tree<L>> -> Loop.Turn<Ready<Tree<L>>, Event<Tree<L>>>)
    requires IsTreeTurn(root, turn)
    ensures turn(Empty()).alive && turn(Empty()).state == Context([], FIRST, Some(root))
    ensures turn(Empty()).emitted == [Before(root, 0)]
    ensures !turn(Exited([], root)).alive && turn(Exited([], root)).state == Empty()
    ensures turn(Exited([], root)).emitted == [After(Some(root), 0)]
  {
    var e: Ready<Tree<L>> := Empty();
    var x: Ready<Tree<L>> := Exited([], root);
    assert Consulted(e) && Consulted(x);
    RootStep(root);
    FinalStep(root, ExitStatus(root));
  }

  /**
   The walk of the whole tree, yielding nothing: enter the root, walk its
   subtree, and on the next step call the root's `after` and return false.
   */
  lemma {:induction false} WalkWholeTree<L(!new)>(root: Tree<L>, turn: Ready<Tree<L>> -> Loop.Turn<Ready<Tree<L>>, Event<Tree<L>>>)
    requires IsTreeTurn(root, turn) && ValidTree(root)
    ensures var r := Loop.Drive(turn, Silent(), Empty(), |Traversal(root)| + 1);
      r.steps == Traversal(root) && r.emitted == Visit(root, 0) && r.last == Empty() && r.done
  {
    var s1: Ready<Tree<L>> := Context([], FIRST, Some(root));
    var n := |SubSteps(root, [])|;
    EndTurns(root, turn);
    EnterSubtree(root, turn, root, [], FIRST);
    Loop.LiveTurnLeads(turn, Silent(), Empty(), n + 1);
    Loop.Resume(turn, Silent(), s1, n, 1);
    Loop.DeadTurnEnds(turn, Silent(), Exited([], root), 1);
    Loop.ConcatAssoc([] + [Before(root, 0)] + ChildVisits(root, 0, 0), [After(Some(root), 0)], []);
    Loop.ConcatAssoc([], [Before(root, 0)], ChildVisits(root, 0, 0));
    Loop.ConcatAssoc([], [Before(root, 0)] + ChildVisits(root, 0, 0), [After(Some(root), 0)]);
    Loop.ConcatAssoc([], [Before(root, 0)] + ChildVisits(root, 0, 0) + [After(Some(root), 0)], []);
    assert [Before(root, 0)] + ChildVisits(root, 0, 0) + ([After(Some(root), 0)] + []) == Visit(root, 0);
  }

  /** The run of the loop over the tree, for any turn that is the tree's and any filter. */
  lemma {:induction false} RunWholeTree<L(!new)>(root: Tree<L>, turn: Ready<Tree<L>> -> Loop.Turn<Ready<Tree<L>>, Event<Tree<L>>>, wanted: Ready<Tree<L>> -> bool, fuel: nat)
    requires IsTreeTurn(root, turn) && ValidTree(root) && fuel > |Traversal(root)|
    ensures var r := Loop.Drive(turn, wanted, Empty(), fuel);
      && r.steps == Traversal(root)
      && r.yielded == Loop.Filter(Traversal(root), wanted)
      && r.emitted == Visit(root, 0)
      && r.last == Empty() && r.done
  {
    var n := |Traversal(root)| + 1;
    WalkWholeTree(root, turn);
    Loop.YieldsDoNotSteer(turn, Silent(), wanted, Empty(), n);
    Loop.Resume(turn, wanted, Empty(), n, fuel - n);
    Loop.YieldsAreWantedSteps(turn, wanted, Empty(), fuel);
  }

  /**
   The iterator over a tree whose sibling names are distinct, started from
   the empty context with enough steps: it passes through `Traversal(root)`,
   yields the contexts of it whose status meets the mode, calls `before` and
   `after` in the nested order of a depth-first visit with the stack length
   as depth, and finishes with the empty context again.
   */
  lemma {:induction false} IterateTree<L(!new)>(root: Tree<L>, mode: Status, fuel: nat)
    requires ValidTree(root) && fuel > |Traversal(root)|
    ensures var r := Iterate(Ts, TreeHooks(root), Empty(), mode, fuel);
      && r.steps == Traversal(root)
      && r.yielded == Loop.Filter(Traversal(root), Wanted(mode))
      && r.emitted == Visit(root, 0)
      && r.last == Empty() && r.done
  {
    TurnIsTreeTurn(root);
    RunWholeTree(root, Turn(root), Wanted(mode), fuel);
  }
}

=== FILE: walker.dfy ===
/**
 One step of `newTreeWalker` (`src/newTreeWalker.ts`) as a pure function.

 The source mutates a shared context and calls `after`, `getNode` and
 `before` along the way. Here the step takes the context and the node the
 lookup returned, and gives back the new context together with the callback
 calls it made, in order. The caller runs the lookup on `Prepare(c)`, the
 context as `getNode` sees it (after the push).
 */
module Walker {
  import opened Options
  import opened Mode
  import opened TreeWalkerContext

  /**
   A callback call: `before` on entering a node, `after` on closing one.
   `depth` is the stack length at the moment of the call, which is what the
   source's tests print as indentation.
   */
  datatype Event<T> = Before(entered: T, depth: nat) | After(closed: Option<T>, depth: nat)

  /** The context after a step, the callbacks it called, and its return value. */
  datatype Outcome<T> = Outcome(ctx: Context<T>, events: seq<Event<T>>, alive: bool)

  /**
   A step pushes `current` when the status has an ENTER bit; the source's
   `current as T` and the `T[]` type of the stack demand that it is there.
   */
  predicate Pushable<T>(c: Context<T>) {
    IsEnter(c.status) ==> c.current.Some?
  }

  /** What the push of a step adds to the stack. */
  function Pushed<T>(c: Context<T>): seq<T>
    requires Pushable(c)
  {
    if IsEnter(c.status) then [c.current.value] else []
  }

  /** The `after` call that opens a step: present exactly after an exit. */
  function ExitCall<T>(c: Context<T>): seq<Event<T>> {
    if IsExit(c.status) then [After(c.current, |c.stack|)] else []
  }

  /** The `before` call that closes a step: present exactly when a node was found. */
  function EnterCall<T>(found: Option<T>, depth: nat): seq<Event<T>> {
    if found.Some? then [Before(found.value, depth)] else []
  }

  /** The context that `getNode` is handed: after `after`, and after the push. */
  function Prepare<T>(c: Context<T>): (mid: Context<T>)
    requires Pushable(c)
    ensures mid.status == c.status && mid.current == c.current
    ensures IsEnter(c.status) ==> mid.stack == c.stack + [c.current.value]
    ensures !IsEnter(c.status) ==> mid.stack == c.stack
  {
    if IsEnter(c.status) then c.(stack := c.stack + [c.current.value]) else c
  }

  /** Every status a step can leave behind. */
  predicate StepStatus(s: Status) {
    s == NONE || IsPrimary(s)
  }

  /**
   One walker step. `found` is what `getNode` returned; `truthy` is the
   JavaScript truthiness of a node, which the source applies to the node it
   pops (a falsy popped node ends traversal).
   */
  function Step<T>(c: Context<T>, found: Option<T>, truthy: T -> bool): (r: Outcome<T>)
    requires Pushable(c)
    ensures Pushable(r.ctx) && StepStatus(r.ctx.status)
    ensures r.alive <==> r.ctx.status != NONE
  {
    var prev := IsExit(c.status);
    var mid := Prepare(c);
    match found
    case Some(node) =>
      Outcome(mid.(current := found, status := if prev then NEXT else FIRST),
              ExitCall(c) + [Before(node, |mid.stack|)], true)
    case None =>
      if |mid.stack| == 0 then
        Outcome(mid.(current := None, status := NONE), ExitCall(c), false)
      else
        var top := mid.stack[|mid.stack| - 1];
        var status := if !truthy(top) then NONE else if prev then LAST else LEAF;
        Outcome(Context(mid.stack[..|mid.stack| - 1], status, Some(top)), ExitCall(c), status != NONE)
  }

  /**
   What one step does. `after` (exactly after an exit) comes first, then
   `before` (exactly when a node was found). A found node is entered, with
   status FIRST after an entry and NEXT after an exit. With no node, the top
   of the stack (after the push) is popped into `current`, and the status
   is LAST after an exit, LEAF otherwise, or NONE when there was nothing
   to pop or the popped node is falsy.
   */
  lemma {:induction false} StepEffect<T>(c: Context<T>, found: Option<T>, truthy: T -> bool)
    requires Pushable(c)
    ensures var r := Step(c, found, truthy);
      && (r.events == ExitCall(c) + EnterCall(found, |c.stack| + |Pushed(c)|))
      && (found.Some? ==> r.ctx.current == found && r.ctx.stack == c.stack + Pushed(c))
      && (found.Some? ==> r.ctx.status == (if IsExit(c.status) then NEXT else FIRST))
      && (found.None? ==> c.stack + Pushed(c) == r.ctx.stack + (if r.ctx.current.Some? then [r.ctx.current.value] else []))
      && (found.None? && |c.stack + Pushed(c)| == 0 ==> r.ctx.current == None && r.ctx.status == NONE)
      && (found.None? && |c.stack + Pushed(c)| > 0 ==> r.ctx.current.Some? && r.ctx.status == (if !truthy(r.ctx.current.value) then NONE else if IsExit(c.status) then LAST else LEAF))
  {
  }

  /**
   The callback order of one step: `after` is called at most once, and first,
   exactly when the previous status had an EXIT bit, before the stack changes;
   `before` is called at most once, and last, exactly when a node was found.
   */
  lemma {:induction false} CallbackOrder<T>(c: Context<T>, found: Option<T>, truthy: T -> bool)
    requires Pushable(c)
    ensures var e := Step(c, found, truthy).events;
      && |e| <= 2
      && (IsExit(c.status) <==> (|e| > 0 && e[0].After?))
      && (IsExit(c.status) ==> e[0] == After(c.current, |c.stack|))
      && (found.Some? <==> (|e| > 0 && e[|e| - 1].Before?))
      && (found.Some? ==> e[|e| - 1] == Before(found.value, |Prepare(c).stack|))
  {
    StepEffect(c, found, truthy);
  }

  /** Nodes of a tree are objects, and objects are always truthy. */
  function AllTruthy<T>(): T -> bool {
    (n: T) => true
  }

  /**
   A node that is entered and then finds no child is closed straight away:
   the push and the pop cancel, so stack and `current` are what they were.
   */
  lemma {:induction false} LeafStepRestores<T>(c: Context<T>, truthy: T -> bool)
    requires IsEnter(c.status) && !IsExit(c.status) && c.current.Some?
    requires truthy(c.current.value)
    ensures Step(c, None, truthy).ctx == c.(status := LEAF)
    ensures Step(c, None, truthy).events == [] && Step(c, None, truthy).alive
  {
    var mid := Prepare(c);
    assert mid.stack[..|mid.stack| - 1] == c.stack;
  }

  /** The finished context is a fixed point: more absent lookups change nothing. */
  lemma {:induction false} TerminatedStaysTerminated<T>(c: Context<T>, truthy: T -> bool)
    requires c.status == NONE && c.stack == []
    ensures Step(c, None, truthy) == Outcome(Context([], NONE, None), [], false)
  {
  }

  /**
   The context as the program holds it at run time. The stack is an array of
   whatever `current` held at each push, so a slot is undefined (`None`)
   where a step opened with no current node. The TypeScript types allow
   that (`current` is optional), and the cast at the push hides it.
   */
  datatype RawContext<T> = RawContext(stack: seq<Option<T>>, status: Status, current: Option<T>)

  datatype RawOutcome<T> = RawOutcome(ctx: RawContext<T>, events: seq<Event<T>>, alive: bool)

  /** A typed context as the run time holds it: every slot defined. */
  function Raw<T>(c: Context<T>): (r: RawContext<T>)
    ensures r.status == c.status && r.current == c.current && |r.stack| == |c.stack|
    ensures forall i :: 0 <= i < |c.stack| ==> r.stack[i] == Some(c.stack[i])
  {
    RawContext(seq(|c.stack|, i requires 0 <= i < |c.stack| => Some(c.stack[i])), c.status, c.current)
  }

  /** Every slot defined: a context the types describe. */
  predicate Typed<T>(r: RawContext<T>) {
    forall i :: 0 <= i < |r.stack| ==> r.stack[i].Some?
  }

  /** The typed reading of a run-time context whose slots are all defined; `Raw` undoes it. */
  function Lower<T>(r: RawContext<T>): (c: Context<T>)
    requires Typed(r)
    ensures Raw(c) == r
  {
    var c := Context(seq(|r.stack|, i requires 0 <= i < |r.stack| => r.stack[i].value), r.status, r.current);
    assert Raw(c).stack == r.stack;
    c
  }

  /** `Lower` undoes `Raw`: the run-time form of a typed context loses nothing. */
  lemma {:induction false} LowerUndoesRaw<T>(c: Context<T>)
    ensures Typed(Raw(c)) && Lower(Raw(c)) == c
  {
    assert Lower(Raw(c)).stack == c.stack;
  }

  function RawOutcomeOf<T>(o: Outcome<T>): RawOutcome<T> {
    RawOutcome(Raw(o.ctx), o.events, o.alive)
  }

  /**
   One step as it runs on any context: an opening status pushes `current`
   whether or not there is one, and popping an undefined slot ends the walk
   as a falsy node does. Whatever the context, the step leaves one whose
   next push is defined.
   */
  function RawStep<T>(c: RawContext<T>, found: Option<T>, truthy: T -> bool): (r: RawOutcome<T>)
    ensures StepStatus(r.ctx.status) && (r.alive <==> r.ctx.status != NONE)
    ensures IsEnter(r.ctx.status) ==> r.ctx.current.Some?
  {
    var prev := IsExit(c.status);
    var enter := IsEnter(c.status);
    var called := if prev then [After(c.current, |c.stack|)] else [];
    var stack := if enter then c.stack + [c.current] else c.stack;
    match found
    case Some(node) =>
      RawOutcome(RawContext(stack, if prev then NEXT else FIRST, found), called + [Before(node, |stack|)], true)
    case None =>
      if |stack| == 0 then
        RawOutcome(RawContext(stack, NONE, None), called, false)
      else
        var top := stack[|stack| - 1];
        var status := if top.None? || !truthy(top.value) then NONE else if prev then LAST else LEAF;
        RawOutcome(RawContext(stack[..|stack| - 1], status, top), called, status != NONE)
  }

  /** On a context the types admit, the step as it runs is the typed step. */
  lemma {:induction false} RawStepAgrees<T>(c: Context<T>, found: Option<T>, truthy: T -> bool)
    requires Pushable(c)
    ensures RawStep(Raw(c), found, truthy) == RawOutcomeOf(Step(c, found, truthy))
  {
    PushRaw(c);
    if found.None? {
      NoneStepAgrees(c, truthy);
    }
  }

  /** The push of the run-time step pushes the typed one. */
  lemma {:induction false} PushRaw<T>(c: Context<T>)
    requires Pushable(c)
    ensures Raw(Prepare(c)).stack == if IsEnter(c.status) then Raw(c).stack + [c.current] else Raw(c).stack
  {
  }

  /** The pop of the run-time step pops the typed one. */
  lemma {:induction false} NoneStepAgrees<T>(c: Context<T>, truthy: T -> bool)
    requires Pushable(c)
    requires Raw(Prepare(c)).stack == if IsEnter(c.status) then Raw(c).stack + [c.current] else Raw(c).stack
    ensures RawStep(Raw(c), None, truthy) == RawOutcomeOf(Step(c, None, truthy))
  {
    if |Prepare(c).stack| > 0 {
      NonePopAgrees(c, truthy);
    } else {
      NoneEmptyAgrees(c, truthy);
    }
  }

  /** With nothing to pop, both steps end the walk with an empty stack and no current node. */
  lemma {:induction false} NoneEmptyAgrees<T>(c: Context<T>, truthy: T -> bool)
    requires Pushable(c) && |Prepare(c).stack| == 0
    requires Raw(Prepare(c)).stack == if IsEnter(c.status) then Raw(c).stack + [c.current] else Raw(c).stack
    ensures RawStep(Raw(c), None, truthy) == RawOutcomeOf(Step(c, None, truthy))
  {
    var t := Step(c, None, truthy);
    assert t.ctx == Context([], NONE, None);
    assert Raw(t.ctx) == RawContext([], NONE, None);
  }

  /** With a node to pop, both steps make it current, drop it from the stack and test its truthiness alike. */
  lemma {:induction false} NonePopAgrees<T>(c: Context<T>, truthy: T -> bool)
    requires Pushable(c) && |Prepare(c).stack| > 0
    requires Raw(Prepare(c)).stack == if IsEnter(c.status) then Raw(c).stack + [c.current] else Raw(c).stack
    ensures RawStep(Raw(c), None, truthy) == RawOutcomeOf(Step(c, None, truthy))
  {
    var mid := Prepare(c);
    var top := mid.stack[|mid.stack| - 1];
    var below := mid.(stack := mid.stack[..|mid.stack| - 1]);
    var t := Step(c, None, truthy);
    PopRaw(mid);
    assert t.ctx == Context(below.stack, t.ctx.status, Some(top));
    assert RawStep(Raw(c), None, truthy).ctx == RawContext(Raw(below).stack, t.ctx.status, Some(top));
  }

  /** Popping the run-time stack pops the typed one. */
  lemma {:induction false} PopRaw<T>(c: Context<T>)
    requires |c.stack| > 0
    ensures var raw := Raw(c).stack;
      && raw[|raw| - 1] == Some(c.stack[|c.stack| - 1])
      && raw[..|raw| - 1] == Raw(c.(stack := c.stack[..|c.stack| - 1])).stack
  {
  }

  /**
   An opening status with no current node pushes an undefined slot, and the
   lookup-less step that pops such a slot ends the walk: status NONE, no
   current node, and the stack below the slot as it was.
   */
  lemma {:induction false} UndefinedSlotEndsWalk<T>(c: RawContext<T>, truthy: T -> bool)
    requires IsEnter(c.status) ==> c.current.None?
    requires !IsEnter(c.status) ==> |c.stack| > 0 && c.stack[|c.stack| - 1].None?
    ensures var r := RawStep(c, None, truthy);
      && r.ctx.status == NONE && r.ctx.current == None && !r.alive
      && r.ctx.stack == if IsEnter(c.status) then c.stack else c.stack[..|c.stack| - 1]
  {
    if IsEnter(c.status) {
      assert (c.stack + [c.current])[..|c.stack|] == c.stack;
    }
  }
}
